=== FILE: README.md ===
# go-circle-of-friends in Dafny

A model of the aggregation core of go-circle-of-friends, a "circle of friends" blog aggregator, written in Dafny with proofs.
The aggregator reads a roster of friend sites from the configuration and from friends pages.
For each friend it discovers an RSS, Atom or JSON feed by probing a fixed list of candidate URLs and falling back to `<link>` autodiscovery.
It normalises the feed items into posts and writes friends and posts either to an in-memory buffer (simple mode) or to a SQLite store.
Old posts are cleaned in store mode, and the result is exported as data.json with a 150-post cap.

The model is functional. The network, HTML parsing, feed parsing, URL parsing and resolution, and CSS selector matching are abstract oracles held in a `Net` value (`oracles.dfy`).
Every contract holds for every behaviour of those oracles.
Go's map iteration order is unspecified, so every operation that ranges over a map is a method that picks keys with `:|`, and its contract holds for every order.
Times are whole seconds and the zero `time.Time` is 0.

Modules, one per component of the program:

- `Feeds` (`feeds.dfy`): feed discovery and item normalisation (internal/feeds/discover.go).
- `Friends` (`page.dfy`): the selector expression language and the friends-page extractor (internal/friends/page.go).
- `Roster` (`roster.dfy`) and `Aggregate` (`runner.dfy`): roster merging, `hostOf`, `processFriend` and `Run` (internal/aggregate/runner.go).
- `SimpleBuf` (`simplebuf.dfy`): the simple-mode buffer (internal/aggregate/simplebuf.go).
- `Store` (`store.dfy`): the SQLite store as two link-keyed maps (internal/store/sqlite.go).
- `Export` (`export.dfy`): the data.json projections (internal/export).
- `Rules`, `Config` and `Logx`: preset lookup, configuration validation and the logging helpers.
- Support modules: `Sorting` (the two list orders, a sort and map enumeration), plus `Text`, `Seqs`, `Html`, `Urls`, `Wrappers` and `Model`.

Two behaviours of the code a reader may not expect:

- `mergeDedup` writes the base list into its map last-write-wins. A base list with a repeated link therefore keeps only the last of them. The model promises "every base entry is kept" only for a base with distinct links, which is what `dedup` always hands it.
- `UpsertFriend` has no empty-link check, unlike `UpsertPost`. The store model accepts a friend with an empty link as an ordinary row.

## Model

| member | source | states |
|---|---|---|
| Feeds.JoinUrl | internal/feeds/discover.go:154-167 | a ref starting with "http" is returned verbatim; if either side fails to parse the result is base + ref; otherwise it is the resolved reference |
| Feeds.JoinUrlKeepsHttpLookalike | internal/feeds/discover.go:155-157 | the test is a plain "http" prefix, so the relative ref "httpfeed.xml" is returned unresolved |
| Feeds.AsDirectory | internal/feeds/discover.go:184-186 | the base path ends in "/" afterwards, only the path changes, and a path already ending in "/" is kept |
| Feeds.DirString | internal/feeds/discover.go:177-180 | an unparsable base gets exactly one trailing "/" unless it already has one |
| Feeds.JoinUrlDir | internal/feeds/discover.go:171-192 | an "http" ref is returned verbatim; one leading "/" of the ref is dropped; the base is treated as a directory, with concatenation when parsing fails |
| Feeds.JoinModesAgreeOnDirectories | internal/feeds/discover.go:154-192 | for a directory base and a relative ref without a leading "/", both joining modes give the same URL whenever the ref parses |
| Feeds.Head | internal/feeds/discover.go:130 | the probe inspects the first min(len, 2048) bytes of the raw body, as a prefix |
| Feeds.FeedJsonIsJson | internal/feeds/discover.go:135 | a type containing "feed+json" also contains "json", so the second test of the JSON branch adds nothing |
| Feeds.FeedJsonJudgedAsJson | internal/feeds/discover.go:131-137 | a non-XML type naming "feed+json" is a feed exactly when the head carries the JSON Feed marker |
| Feeds.LooksLikeFeed | internal/feeds/discover.go:131-150 | a lower-cased type with rss, atom or xml is a feed whatever the body; a JSON type is a feed iff the head carries a JSON Feed marker; otherwise iff the head has feed markup |
| Feeds.VerdictIgnoresTail | internal/feeds/discover.go:130 | bytes past the first 2048 never change the verdict |
| Feeds.VerdictIgnoresTypeCase | internal/feeds/discover.go:131 | the verdict ignores the case of the Content-Type |
| Feeds.Probe | internal/feeds/discover.go:120-151 | an unreachable URL is not a feed; a reachable one is classified by its type and body |
| Feeds.Candidates | internal/feeds/discover.go:25-70 | 27 candidates, or 29 with a suffix; the suffix comes first in both joining modes, then the 5 directory names, then the 22 root endpoints, each by index |
| Feeds.LinkCandidate | internal/feeds/discover.go:92-111 | when some `<link>` matches either rule, the pick is the href, joined to the site, of the first matching one in document order; a non-empty pick always comes from that first match; it is "" when no link matches |
| Feeds.FirstFeedLinkUnique | internal/feeds/discover.go:92-111 | the walk stops at one link only: the first matching link is unique |
| Feeds.DiscoverFromHtml | internal/feeds/discover.go:80-116 | the fallback succeeds only with a non-empty pick that probes as a feed; every failure carries a non-empty message |
| Feeds.Discover | internal/feeds/discover.go:23-117 | a returned URL probes as a feed; failure comes only after every candidate probed false, with a non-empty error |
| Feeds.DiscoverFindsFirstCandidate | internal/feeds/discover.go:73-78 | discovery returns the first candidate in list order that probes as a feed |
| Feeds.DiscoverFallsBackToLinkTag | internal/feeds/discover.go:112-116 | with every candidate failing, discovery returns the autodiscovered link if it probes as a feed, else the "no feed discovered" error |
| Feeds.DiscoverPicksFirstFeedLink | internal/feeds/discover.go:80-116 | with every candidate failing and a parsable site page, discovery returns the joined href of the first matching `<link>` whenever that URL probes as a feed |
| Feeds.PickTime | internal/feeds/discover.go:235-243 | the first present time, else the second, else the zero time |
| Feeds.AuthorName | internal/feeds/discover.go:245-255 | the author's name, else their e-mail, else "" |
| Feeds.Normalize | internal/feeds/discover.go:210-217 | title and link trimmed, the author's name, Created from the published time and Updated from the updated time when present, both zero when neither is |
| Feeds.NormalizeTimes | internal/feeds/discover.go:211-216 | title and link are trimmed; Created prefers the published time and Updated the updated time; with one time missing both fields agree; with both missing Created is zero |
| Feeds.CollectItems | internal/feeds/discover.go:209-222 | the loop yields min(#items, max) items for a positive max and all of them otherwise, item i being the normalised raw item i |
| Feeds.CollectItemsInOrder | internal/feeds/discover.go:209-222 | the i-th collected item is the normalisation of the i-th raw item, so the feed order is kept |
| Feeds.NormalizeItems | internal/feeds/discover.go:209-223 | the same bound stated by cases of max, and feed order is kept |
| Feeds.CapIsPrefix | internal/feeds/discover.go:219-221 | a capped result is a prefix of the uncapped one |
| Feeds.ParseFeed | internal/feeds/discover.go:195-224 | a fetch failure is an error; a parsed feed gives its normalised, capped items; errors are non-empty |
| Friends.FirstAt | internal/friends/page.go:84 | in `s@a` with an `@`-free `s` the first "@" is at position len(s) |
| Friends.NoAt | internal/friends/page.go:84 | an `@`-free expression has no "@" |
| Friends.ParseSplitsAtFirstAt | internal/friends/page.go:84-86 | an expression `sel@attr` whose selector holds no '@' is split at the '@' right after the selector |
| Friends.SplitAtTrimmed | internal/friends/page.go:85-86 | splitting `sel@attr` and trimming both sides gives back already-trimmed parts unchanged |
| Friends.ParseShowScopeAttr | internal/friends/page.go:84-90 | "@attr" reads the scope's own attribute |
| Friends.ParseShowSelectorAttr | internal/friends/page.go:84-94 | "sel@attr" splits at the first "@" into selector and attribute |
| Friends.ParseShow | internal/friends/page.go:77-101 | parsing the printed form of every well-formed expression gives the expression back |
| Friends.Eval | internal/friends/page.go:77-101 | "." is the item's trimmed text, "@attr" its trimmed attribute, "sel@attr" the trimmed attribute and "sel" the trimmed text of the first descendant `sel` matches; a selector matching nothing and the empty expression give "" |
| Friends.GetValSingle | internal/friends/page.go:77-101 | an empty expression yields "" and every value is trimmed |
| Friends.ParseSingle | internal/friends/page.go:77-96 | "" reads nothing, "." reads the scope text, an expression without '@' is a selector, and one with '@' is an attribute read whose trimmed selector is empty (the scope) or not |
| Friends.GetValScopeText | internal/friends/page.go:81-83 | "." gives the item's own trimmed text |
| Friends.GetValScopeAttr | internal/friends/page.go:84-90 | "@attr" gives the item's own trimmed attribute |
| Friends.GetValSelectorAttr | internal/friends/page.go:84-95 | "sel@attr" gives the trimmed attribute of the first descendant `sel` matches, and "" when none matches |
| Friends.GetValSelectorText | internal/friends/page.go:97-100 | a bare "sel" gives the trimmed text of the first descendant `sel` matches, and "" when none matches |
| Friends.FirstValue | internal/friends/page.go:65-71 | the parts are tried left to right and the result is the first non-empty value; it is "" iff every part yields "" |
| Friends.GetVal | internal/friends/page.go:59-74 | an expression that is empty after trimming yields ""; one without "||" is evaluated as a single expression after trimming; the value is trimmed |
| Friends.FirstValueOne | internal/friends/page.go:73 | a lone part evaluates exactly as the single expression |
| Friends.Fallback | internal/friends/page.go:64-72 | `p1||p2||...` evaluates to the first part with a non-empty value |
| Friends.Abs | internal/friends/page.go:104-121 | a blank ref gives ""; an http(s) ref is returned trimmed and verbatim; a parse failure on either side returns the trimmed ref; otherwise the ref is resolved against the page URL |
| Friends.AbsIgnoresSpace | internal/friends/page.go:105 | surrounding whitespace of the ref never matters |
| Friends.AbsFixesAbsolute | internal/friends/page.go:109-111 | absolutising an absolute result again changes nothing |
| Friends.ExtractOne | internal/friends/page.go:42-53 | an item is dropped iff both its trimmed name and its absolutised link are empty; otherwise its fields are the evaluated name, link and avatar |
| Friends.ExtractAll | internal/friends/page.go:40-55 | every friend returned comes from some item, and every item that is not dropped yields its friend |
| Friends.ExtractedNotBlank | internal/friends/page.go:46-48 | no extracted friend has both name and link empty |
| Friends.ExtractAllAppend | internal/friends/page.go:41 | extraction distributes over concatenation of the item list, so document order is kept and nothing is deduplicated |
| Friends.ParseFriendsPage | internal/friends/page.go:25-56 | no friends_page rule gives an empty list and no error; with a rule, it succeeds exactly when the page fetches and parses, and then yields the friends extracted from the items matching the item selector |
| Rules.Wanted | internal/rules/rules.go:60-62 | an empty name is read as "default" |
| Rules.GetPreset | internal/rules/rules.go:56-80 | nil or empty rules give no preset and false; otherwise true with a preset of the map; an exact key wins, then a case-insensitive key, then "default" |
| Config.OrDefault | internal/config/config.go:96-113 | an empty setting takes its default and any other is kept |
| Config.Validate | internal/config/config.go:82-116 | success iff both counts are non-negative and the database type is empty or "sqlite", with the error of the first failing check; on success every default is filled in as specified |
| Config.ValidatedIsFixed | internal/config/config.go:82-116 | a validated configuration passes unchanged |
| Config.ValidateIdempotent | internal/config/config.go:82-116 | validating twice is validating once |
| Logx.LevelOfKey | internal/logx/logx.go:38-52 | debug, warn or warning, error, and none, silent or off map to their levels; anything else is Info |
| Logx.ParseLevel | internal/logx/logx.go:36-53 | a blank name is Info; "debug", "warn"/"warning", "error" and "none"/"silent"/"off" in any case and with surrounding space give their levels; the result is always one of the five levels |
| Logx.ParseLevelNormalised | internal/logx/logx.go:38 | the level name is trimmed and lower-cased before matching |
| Logx.LowerKeepsTrimmed | internal/logx/logx.go:38 | lower-casing keeps a trimmed name trimmed |
| Logx.Enabled | internal/logx/logx.go:86-92 | a fixed level passes exactly the levels at or above it, unless it is silent; a dynamic one passes everything |
| Logx.SilencedPassesNothing | internal/logx/logx.go:89 | a silenced handler passes no level |
| Logx.EnabledUpward | internal/logx/logx.go:89 | a level that passes lets every higher level pass |
| Logx.LevelLabel | internal/logx/logx.go:157-184 | for a locale starting with "zh" in any case the labels are "[调试]", "[信息]", "[警告]" and "[错误]"; otherwise "[DEBUG]", "[INFO]", "[WARN]" and "[ERROR]"; any other level is "[L<n>]" |
| Logx.LabelIgnoresLocaleCase | internal/logx/logx.go:158 | the locale's case never changes a label |
| Logx.NamedLabelsDistinct | internal/logx/logx.go:159-183 | the four named levels get four distinct labels, none of the numeric form |
| Logx.ColorCode | internal/logx/logx.go:214-226 | debug is 90, info 36, warn 33 and error 31; every other level is 0 |
| Logx.Colorize | internal/logx/logx.go:212-228 | the text is wrapped between the escape carrying the level's own code followed by "m" and the reset escape |
| Logx.StripColorize | internal/logx/logx.go:227 | removing the wrapping gives the text back |
| Logx.ShouldColor | internal/logx/logx.go:187-209 | NO_COLOR set means no colour; otherwise "always" colours, auto or empty follows the terminal, and anything else does not colour |
| Logx.NewPrettyHandler | internal/logx/logx.go:73-83 | an empty locale becomes "zh-CN"; the handler starts without attributes or group, with the colour decision of its mode |
| Logx.WithAttrs | internal/logx/logx.go:139-143 | the copy's attributes are the old ones followed by the new ones, and nothing else changes |
| Logx.AttrsAccumulate | internal/logx/logx.go:139-143 | adding attributes in two steps equals adding them at once |
| Logx.WithGroup | internal/logx/logx.go:146-154 | the group becomes the name when it was empty, else it gets "." and the name appended; nothing else changes |
| Logx.GroupPath | internal/logx/logx.go:146-154 | nested groups give the dotted path of their names |
| SimpleBuf.AddFriend | internal/aggregate/simplebuf.go:24-31 | an empty link changes nothing; otherwise the friend replaces its link's entry and every other entry is kept |
| SimpleBuf.AddPost | internal/aggregate/simplebuf.go:33-40 | an empty link changes nothing; otherwise the post replaces its link's entry and every other entry is kept |
| SimpleBuf.AddFriendIdempotent | internal/aggregate/simplebuf.go:24-31 | adding a friend twice is adding it once |
| SimpleBuf.AddPostIdempotent | internal/aggregate/simplebuf.go:33-40 | adding a post twice is adding it once |
| SimpleBuf.AddPosts | internal/aggregate/simplebuf.go:42-51 | the batch equals `AddPost` applied to each element in order |
| SimpleBuf.LastPostWins | internal/aggregate/simplebuf.go:44-49 | a link ends up holding the last post of the batch that carries it |
| SimpleBuf.AddEachKeys | internal/aggregate/simplebuf.go:44-49 | the post keys afterwards are the old keys plus every non-empty link of the batch |
| SimpleBuf.Snapshot | internal/aggregate/simplebuf.go:56-70 | friends sorted by name and posts newest first, each list a permutation of the stored values taken once per link |
| Sorting.Enumerate | internal/aggregate/simplebuf.go:60-62 | ranging over a map visits every key once in some order, pairing each key with its value |
| Sorting.ByNameIsTotalPreorder | internal/aggregate/simplebuf.go:63 | ordering by name compares any two friends and is transitive |
| Sorting.NewestFirstIsTotalPreorder | internal/aggregate/simplebuf.go:68 | ordering newest first compares any two posts and is transitive |
| Sorting.SortByName | internal/aggregate/simplebuf.go:63 | a permutation ordered by name |
| Sorting.SortNewestFirst | internal/aggregate/simplebuf.go:68 | a permutation ordered by creation time, newest first |
| Sorting.SortedFriends | internal/aggregate/simplebuf.go:59-63 | a permutation of the friend values listed once per key, sorted by name |
| Sorting.SortedPosts | internal/aggregate/simplebuf.go:64-68 | a permutation of the post values listed once per key, newest first |
| Sorting.KeyOrderCovers | internal/aggregate/simplebuf.go:60-62 | as many distinct keys as the map holds leave no key out |
| Sorting.ListedValues | internal/aggregate/simplebuf.go:60-62 | a key/value listing that covers every key holds every value of the map and nothing else |
| Store.NowOr | internal/store/sqlite.go:198-203 | the zero time becomes now and any other time is kept |
| Store.UpsertFriend | internal/store/sqlite.go:80-89 | a new link is inserted with its creation time or now; an existing link gets the new name, avatar and error but keeps its created_at; other rows and the posts are untouched |
| Store.UpsertPost | internal/store/sqlite.go:92-104 | an empty link is refused with "post.link required" and nothing is written; otherwise a new post is inserted, or an existing one is overwritten except created_at, one row per link |
| Store.CreatedAtIsStable | internal/store/sqlite.go:83 | once a row exists its created_at never changes |
| Store.UpsertFriendIdempotent | internal/store/sqlite.go:80-84 | upserting the same friend again changes nothing |
| Store.CleanOldPosts | internal/store/sqlite.go:186-195 | days <= 0 is a no-op; otherwise exactly the posts created before now minus the given days are deleted; friends are untouched |
| Store.CleanIdempotent | internal/store/sqlite.go:186-195 | cleaning twice with one threshold is cleaning once |
| Store.CleanMonotone | internal/store/sqlite.go:190 | a longer retention keeps every post a shorter one keeps |
| Store.Stats | internal/store/sqlite.go:169-183 | the totals are the table sizes, the alive count is the number of friends with an empty error, and alive plus failing is the friend total |
| Store.SubsetCard | internal/store/sqlite.go:177 | the alive friends are a subset of all friends, so FriendsError is non-negative |
| Store.UpsertFriendAlive | internal/store/sqlite.go:174 | a friend written with an empty error counts as alive, and one written with an error does not |
| Store.NewFriendAlive | internal/store/sqlite.go:80-89 | inserting a new friend adds its link to the alive links exactly when its error is empty, and changes them in no other way |
| Store.NewFriendCount | internal/store/sqlite.go:80-89 | inserting a new friend adds one row |
| Store.UpsertNewFriendStats | internal/store/sqlite.go:169-183 | after inserting a new friend the friend total grows by one, and so does the alive count when its error is empty or the failing count otherwise |
| Store.Reset | internal/store/sqlite.go:39-48 | both tables are empty afterwards |
| Store.ResetStats | internal/store/sqlite.go:39-48 | after a reset every count is zero |
| Store.ListFriends | internal/store/sqlite.go:107-131 | a permutation of the friend rows, one per link, ordered by name |
| Store.ListPosts | internal/store/sqlite.go:134-166 | a permutation of the post rows, one per link, newest first |
| Export.Cap | internal/export/fromdata.go:16-19 | the first 150 posts when there are more, otherwise all of them |
| Export.CountAlive | internal/export/fromdata.go:21-26 | the alive count never exceeds the number of friends |
| Export.CountAliveAppend | internal/export/fromdata.go:21-26 | counting distributes over concatenation |
| Export.CountAliveBounds | internal/export/fromdata.go:21-26 | all alive counts every friend and none alive counts zero |
| Export.ToJsonData | internal/export/fromdata.go:14-34 | friends pass through, posts are capped, FriendsError is the total minus the alive count, and PostsTotal is the capped length, at most 150 |
| Export.ToJson | internal/export/export.go:15-35 | the first failing query aborts with its prefix; otherwise friends as listed, posts capped, and the store's stats with PostsTotal replaced |
| Export.ExportStore | internal/export/export.go:15-35 | against a store, the export holds every friend row once; its posts are the first min(150, n) of a listing of every stored post once per link, newest first; any post left out is no newer than every post exported; the counts agree with the tables |
| Export.CapKeepsNewest | internal/export/export.go:28-32 | cutting a newest-first listing of all posts leaves out only posts no newer than any it keeps |
| Export.CappedListing | internal/export/export.go:28-32 | the cut keeps min(150, #posts) stored posts, still newest first |
| Roster.HasLinkCons | internal/aggregate/runner.go:153 | a link of a non-empty list is its head's link or a link of its tail |
| Roster.AddNew | internal/aggregate/runner.go:174-182 | entries already present are never overwritten |
| Roster.AddNewKeys | internal/aggregate/runner.go:153-160 | the keys afterwards are the old ones plus every non-empty link added |
| Roster.AddNewKeyed | internal/aggregate/runner.go:157-159 | every entry stays under its own link |
| Roster.AddNewFirst | internal/aggregate/runner.go:157-159 | a key that gets added holds the first friend of the list with that link |
| Roster.BaseMap | internal/aggregate/runner.go:171-173 | the keys are the base's links, empty ones included, and each entry is a base friend under its own link |
| Roster.BaseMapKeepsUnique | internal/aggregate/runner.go:171-173 | a base friend whose link is unique is stored unchanged |
| Roster.Values | internal/aggregate/runner.go:161-164 | the values come out one per link, covering every key |
| Roster.Dedup | internal/aggregate/runner.go:151-166 | distinct links whose set is the non-empty input links; each entry is the first input friend with its link, and every such first friend is present |
| Roster.MergeDedup | internal/aggregate/runner.go:169-188 | distinct links whose set is the base links plus the non-empty added links; a base with distinct links is kept whole; anything else is the first added friend with a link the base lacks |
| Roster.Max | internal/aggregate/runner.go:190-195 | the larger of the two |
| Roster.Workers | internal/aggregate/runner.go:70 | the worker bound is at least 1 and equals the configured value when that is positive |
| Roster.HostOf | internal/aggregate/runner.go:198-213 | "" maps to ""; a parsed non-empty host is returned; otherwise the fallback contains none of "/?#" |
| Roster.HostOfFallback | internal/aggregate/runner.go:205-212 | for an unparsable `scheme://host/rest` the fallback returns exactly the host |
| Roster.SchemeSeparator | internal/aggregate/runner.go:206-207 | the first "://" of `scheme://rest` with a colon-free scheme sits right after the scheme |
| Roster.HostEnd | internal/aggregate/runner.go:209-210 | the host part is cut at the first "/", "?" or "#", which for a host free of them is the "/" after it |
| Aggregate.NewSink | internal/aggregate/runner.go:35-41 | a fresh buffer exactly in simple mode, else the store |
| Aggregate.PutFriend | internal/aggregate/runner.go:106-110 | writes to the buffer or the store; other friends and all posts are untouched |
| Aggregate.PutPost | internal/aggregate/runner.go:140-146 | writes to the buffer or the store; an empty link changes nothing |
| Aggregate.PutPosts | internal/aggregate/runner.go:129-147 | writing posts never touches the friends and keeps the sink well-formed |
| Aggregate.PutPostsKeys | internal/aggregate/runner.go:129-147 | the post keys afterwards are the old keys plus every non-empty link written |
| Aggregate.PutPostsWritten | internal/aggregate/runner.go:129-147 | every post that differs afterwards is one of those written, up to created_at |
| Aggregate.ToPost | internal/aggregate/runner.go:130-139 | a post carries the item's title, times, link and author, the friend's avatar, rule "feed" and the round's time |
| Aggregate.ToPosts | internal/aggregate/runner.go:129-139 | one post per item |
| Aggregate.FriendRecord | internal/aggregate/runner.go:96-114 | the friend row carries the configured name, link and avatar and the round's time, with the discovery error on failure and "" on success |
| Aggregate.ProcessFriend | internal/aggregate/runner.go:94-148 | the friend is recorded with the discovery error or with an empty error; failure writes no post; other friends are untouched |
| Aggregate.ProcessFriendStatus | internal/aggregate/runner.go:103-114 | the recorded error is empty exactly when discovery succeeds |
| Aggregate.ProcessFriendPosts | internal/aggregate/runner.go:122-147 | posts are only added or overwritten; each new one is a parsed item with rule "feed" and the friend's avatar; every item with a link lands in the sink |
| Aggregate.PutItems | internal/aggregate/runner.go:129-147 | writing a feed's items keeps every old post key, lands every item that has a link, and every post it changes is built from one of the items |
| Aggregate.FromItemFields | internal/aggregate/runner.go:130-139 | a post built from a feed item carries rule "feed" and the friend's avatar |
| Aggregate.ProcessFriendRecords | internal/aggregate/runner.go:103-147 | one friend with a non-empty link ends up recorded with its discovery outcome, and no post key is lost |
| Aggregate.PresetFor | internal/aggregate/runner.go:52-57 | no rules or empty rules mean no preset; otherwise the preset comes from the map: an exact theme match wins, then a case-insensitive one, then "default" |
| Aggregate.SuppliedByStep | internal/aggregate/runner.go:48-65 | handling one more source adds exactly the links that source supplies |
| Aggregate.FaithfulStep | internal/aggregate/runner.go:48-58 | a record of how each source was handled extends source by source |
| Aggregate.ReadSource | internal/aggregate/runner.go:48-64 | a non-"page" source is skipped; a page is read with a preset meeting every guarantee of `PresetFor` (exact, case-insensitive, then "default" key); a successful read merges its non-empty links and nothing else; static friends stay |
| Aggregate.CollectRoster | internal/aggregate/runner.go:46-65 | distinct links, none empty, which are exactly the non-empty static links and the non-empty links of successfully read "page" sources, each read with a preset the rules pick; every static link keeps its first static friend; without "page" sources only static links remain |
| Aggregate.ProcessEach | internal/aggregate/runner.go:72-82 | processing a roster in order keeps the sink's mode and its validity |
| Aggregate.LoopStep | internal/aggregate/runner.go:72-82 | one more friend processed: the earlier entries stay recorded, the new one is recorded, and its link is the only friend key added |
| Aggregate.ProcessEachRecords | internal/aggregate/runner.go:72-82 | after the loop every roster entry is recorded with its discovery outcome, the friend keys are the old ones plus the roster's links, and no post key is lost |
| Aggregate.ProcessAll | internal/aggregate/runner.go:70-82 | the loop over the roster equals processing the entries one after another in roster order: every entry recorded, only roster links added as friend keys, no post key lost, the mode and validity kept |
| Aggregate.Run | internal/aggregate/runner.go:44-91 | the roster is exactly the non-empty static links and those of successfully read pages; the sink after the loop is the roster processed in order, with every roster friend recorded with its discovery outcome, no other friend added and no post key lost; in simple mode that sink is the result, in store mode the result is exactly `CleanOldPosts` of it |
| Aggregate.CleanUp | internal/aggregate/runner.go:85-90 | store mode keeps exactly the posts `CleanOldPosts` keeps and simple mode keeps everything; friends are never touched |
| Aggregate.BufferData | internal/aggregate/runner.go:216-221 | the buffer's sorted snapshot in simple mode and empty lists otherwise |

## Left out

- HTTP transport (internal/fetch/fetch.go is not part of this model): retries, proxies, the User-Agent and status handling are inside the `fetch` oracle, and a non-2xx status is a `Failure`.
- Timeouts (6 s per probe, 25 s per feed) and the body read limits (2 MiB, 4 MiB) are absent because they depend on time and transport; only the 2048-byte probe head is modelled.
- Feeds.Head: a response body is the raw bytes, one `char` per byte (the `Bytes` type), so the 2048 cut is a byte cut as in Go; decoding UTF-8 is left to the parse oracles.
- Logx.WithAttrs: the model's attribute lists are values, so the Go slice aliasing of `append(h.attrs, attrs...)` is not reproduced: two children derived from one parent with spare capacity may overwrite each other's last attributes in Go, whereas here each child keeps its own.
- gofeed, goquery and cascadia are oracles: `parseFeed`, `parseHtml` and `matches(selector, node)`. "First" means first in pre-order.
- net/url parsing, `ResolveReference` and `String` are the `UrlLib` oracle, so RFC 3986 resolution itself is not modelled.
- Concurrency is a sequential loop in roster order: the goroutines, semaphore and WaitGroup of `Run` and the buffer mutex. Two friends emitting posts with the same link may end in a different state under Go's scheduling.
- Each round uses one `now` for all of its `time.Now()` calls.
- The `fetch` oracle is a function of the URL, so it answers a URL the same way throughout a round. In Go a URL that probed as a feed can still fail the second fetch in `processFriend` (the probe and the feed read have separate 6 s and 25 s timeouts); the model does not cover that outcome.
- SQL execution is modelled as maps: migrations, the driver, text comparison of timestamps by SQLite, NULL error columns, and the `time.Now` fallbacks of `ListFriends`/`ListPosts` for NULL timestamps (every row written here has a timestamp).
- Store errors other than the empty post link are absent: the database is assumed to answer.
- File, YAML and JSON I/O: `config.Load`, `rules.Load`, the JSON encoding and file writes of the exports, and main.go.
- Logging output: `Init`, `PrettyHandler.Handle`, the `Debugf`/`Infof`/`Warnf`/`Errorf` calls and TTY detection, which is the `isTerminal` parameter of `ShouldColor`.
- Lower-casing is ASCII-only; Go's `strings.ToLower` and `bytes.ToLower` also fold non-ASCII letters, some of them onto ASCII ones (U+0130 'İ' to 'i', the Kelvin sign U+212A to 'k'). So a head or type that reaches an ASCII marker only through such a letter is a feed in Go and not in the model, a level name like "WARNİNG" is Warn in Go and Info in the model, and the same holds for the rule and theme lookups.
- Aggregate.Run: the warning for an empty roster and the log lines are omitted; a failing `CleanOldPosts` cannot occur in the model.
- Roster.MergeDedup: the promise that every base entry is kept is stated for a base with distinct links, because the source's base loop is last-write-wins.
- Sorting.SortByName: Go's `sort.Slice` is not stable, so the model promises only some permutation sorted by name, not a particular order among equal names.

=== FILE: config.dfy ===
/** The settings record of internal/config/config.go and its validation,
    which rejects negative counts and unsupported databases and fills in the
    documented defaults. */
module Config {
  import opened Wrappers

  /** A friends-page source; `kind` is the YAML `type` ("page"). */
  datatype LinkSource = LinkSource(kind: string, url: string, theme: string)

  /** A configured friend; `feedSuffix` is an optional feed path hint. */
  datatype StaticFriend = StaticFriend(name: string, link: string, avatar: string, feedSuffix: string)

  datatype Database = Database(kind: string, dsn: string)

  datatype Concurrency = Concurrency(fetch: int, retry: int)

  datatype Proxy = Proxy(http: string, https: string)

  datatype Config = Config(
    linkSources: seq<LinkSource>,
    staticFriends: seq<StaticFriend>,
    maxPostsNum: int,
    outdateCleanDays: int,
    simpleMode: bool,
    resetOnStart: bool,
    database: Database,
    concurrency: Concurrency,
    proxy: Proxy,
    logLevel: string,
    logFormat: string,
    logLocale: string,
    logColor: string)

  const DefaultDatabase := "sqlite"
  const DefaultDsn := "./data.db"
  const DefaultFetch := 8
  const DefaultRetry := 2
  const DefaultLogFormat := "pretty"
  const DefaultLogLocale := "zh-CN"
  const DefaultLogColor := "auto"

  /** `s`, or `d` when `s` is empty. */
  function OrDefault(s: string, d: string): (r: string)
    ensures s != "" ==> r == s
    ensures s == "" ==> r == d
  {
    if s == "" then d else s
  }

  /** What a configuration looks like after a successful validation. */
  predicate Validated(c: Config) {
    && c.maxPostsNum >= 0
    && c.outdateCleanDays >= 0
    && c.database.kind == DefaultDatabase
    && c.database.dsn != ""
    && c.concurrency.fetch > 0
    && c.concurrency.retry >= 0
    && c.logFormat != ""
    && c.logLocale != ""
    && c.logColor != ""
  }

  /** `Config.Validate`: the checks in source order, then the defaults. */
  function Validate(c: Config): (r: Result<Config>)
    ensures r.Success? <==>
      c.maxPostsNum >= 0 && c.outdateCleanDays >= 0 && c.database.kind in {"", DefaultDatabase}
    ensures c.maxPostsNum < 0 ==> r == Failure("MAX_POSTS_NUM must be >= 0")
    ensures c.maxPostsNum >= 0 && c.outdateCleanDays < 0 ==> r == Failure("OUTDATE_CLEAN must be >= 0")
    ensures c.maxPostsNum >= 0 && c.outdateCleanDays >= 0 && c.database.kind !in {"", DefaultDatabase} ==>
      r == Failure("unsupported database type: " + c.database.kind)
    ensures r.Success? ==> Validated(r.value)
    ensures r.Success? ==> r.value.database.dsn == OrDefault(c.database.dsn, DefaultDsn)
    ensures r.Success? ==> r.value.concurrency.fetch == (if c.concurrency.fetch <= 0 then DefaultFetch else c.concurrency.fetch)
    ensures r.Success? ==> r.value.concurrency.retry == (if c.concurrency.retry < 0 then DefaultRetry else c.concurrency.retry)
    ensures r.Success? ==> r.value.logFormat == OrDefault(c.logFormat, DefaultLogFormat)
    ensures r.Success? ==> r.value.logLocale == OrDefault(c.logLocale, DefaultLogLocale)
    ensures r.Success? ==> r.value.logColor == OrDefault(c.logColor, DefaultLogColor)
    // nothing else changes
    ensures r.Success? ==>
      r.value.(database := c.database, concurrency := c.concurrency,
               logFormat := c.logFormat, logLocale := c.logLocale, logColor := c.logColor) == c
  {
    if c.maxPostsNum < 0 then Failure("MAX_POSTS_NUM must be >= 0")
    else if c.outdateCleanDays < 0 then Failure("OUTDATE_CLEAN must be >= 0")
    else
      var kind := OrDefault(c.database.kind, DefaultDatabase);
      if kind != DefaultDatabase then Failure("unsupported database type: " + kind)
      else
        Success(c.(
          database := Database(kind, OrDefault(c.database.dsn, DefaultDsn)),
          concurrency := Concurrency(
            if c.concurrency.fetch <= 0 then DefaultFetch else c.concurrency.fetch,
            if c.concurrency.retry < 0 then DefaultRetry else c.concurrency.retry),
          logFormat := OrDefault(c.logFormat, DefaultLogFormat),
          logLocale := OrDefault(c.logLocale, DefaultLogLocale),
          logColor := OrDefault(c.logColor, DefaultLogColor)))
  }

  /** An already validated configuration passes unchanged. */
  lemma ValidatedIsFixed(c: Config)
    requires Validated(c)
    ensures Validate(c) == Success(c)
  {
  }

  /** Validating twice is the same as validating once. */
  lemma ValidateIdempotent(c: Config)
    requires Validate(c).Success?
    ensures Validate(Validate(c).value) == Validate(c)
  {
    ValidatedIsFixed(Validate(c).value);
  }
}

=== FILE: export.dfy ===
/** The data.json projections of internal/export: the 150-post cap and the
    statistics, without the JSON encoding and the file write. */
module Export {
  import opened Wrappers
  import opened Model
  import Store
  import Sorting

  /** At most this many posts are exported. */
  const MaxExportPosts := 150

  /** The first `MaxExportPosts` posts, or all of them when fewer. */
  function Cap(posts: seq<Post>): (r: seq<Post>)
    ensures |r| == (if |posts| > MaxExportPosts then MaxExportPosts else |posts|)
    ensures r == posts[..|r|]
  {
    if |posts| > MaxExportPosts then posts[..MaxExportPosts] else posts
  }

  /** The number of friends whose error is empty. */
  function CountAlive(friends: seq<Friend>): (n: nat)
    ensures n <= |friends|
  {
    if friends == [] then 0
    else (if friends[0].error == "" then 1 else 0) + CountAlive(friends[1..])
  }

  /** Counting distributes over concatenation. */
  lemma {:induction false} CountAliveAppend(a: seq<Friend>, b: seq<Friend>)
    ensures CountAlive(a + b) == CountAlive(a) + CountAlive(b)
  {
    if a == [] {
      assert a + b == b;
    } else {
      assert (a + b)[1..] == a[1..] + b;
      CountAliveAppend(a[1..], b);
    }
  }

  /** The count is that of the friends with an empty error, wherever they
      sit: all alive gives the length, none alive gives zero. */
  lemma {:induction false} CountAliveBounds(friends: seq<Friend>)
    ensures (forall i :: 0 <= i < |friends| ==> friends[i].error == "") ==> CountAlive(friends) == |friends|
    ensures (forall i :: 0 <= i < |friends| ==> friends[i].error != "") ==> CountAlive(friends) == 0
  {
    if friends != [] {
      CountAliveBounds(friends[1..]);
      assert forall i :: 1 <= i < |friends| ==> friends[1..][i - 1] == friends[i];
    }
  }

  /** `ToJSONData`: the in-memory friends unchanged, the posts capped, and
      statistics computed from what is exported. */
  function ToJsonData(friends: seq<Friend>, posts: seq<Post>, now: int): (e: Model.Export)
    ensures e.friends == friends
    ensures e.posts == Cap(posts)
    ensures e.stats.friendsTotal == |friends|
    ensures e.stats.friendsAlive == CountAlive(friends)
    ensures e.stats.friendsError == |friends| - CountAlive(friends) >= 0
    ensures e.stats.postsTotal == |e.posts| <= MaxExportPosts
    ensures e.stats.updatedAt == now
  {
    var capped := Cap(posts);
    var alive := CountAlive(friends);
    Model.Export(Model.Stats(|friends|, alive, |friends| - alive, |capped|, now), friends, capped)
  }

  /** `ToJSON`: the first failing query aborts with its prefix; otherwise
      the listed friends, the capped posts and the store's statistics with
      `PostsTotal` replaced by the exported count. */
  function ToJson(friends: Result<seq<Friend>>, posts: Result<seq<Post>>, stats: Result<Model.Stats>): (r: Result<Model.Export>)
    ensures friends.Failure? ==> r == Failure("list friends: " + friends.error)
    ensures friends.Success? && posts.Failure? ==> r == Failure("list posts: " + posts.error)
    ensures friends.Success? && posts.Success? && stats.Failure? ==> r == Failure("stats: " + stats.error)
    ensures r.Success? <==> friends.Success? && posts.Success? && stats.Success?
    ensures r.Success? ==>
      && r.value.friends == friends.value
      && r.value.posts == Cap(posts.value)
      && r.value.stats == stats.value.(postsTotal := |Cap(posts.value)|)
  {
    if friends.Failure? then Failure("list friends: " + friends.error)
    else if posts.Failure? then Failure("list posts: " + posts.error)
    else if stats.Failure? then Failure("stats: " + stats.error)
    else
      var capped := Cap(posts.value);
      Success(Model.Export(stats.value.(postsTotal := |capped|), friends.value, capped))
  }

  /** `ps` lists every post of `m` once per link, newest first. */
  ghost predicate NewestListing(m: map<string, Post>, ps: seq<Post>) {
    Sorting.ValuesOnce(m, ps) && forall i, j :: 0 <= i < j < |ps| ==> ps[i].created >= ps[j].created
  }

  /** `ToJSON` against a store whose queries succeed: the exported posts
      are the newest ones, every post left out is no newer than every post
      exported, and the statistics agree with the store's tables. */
  method ExportStore(db: Store.Db, now: int) returns (e: Model.Export)
    ensures |e.friends| == |db.friends|
    ensures Sorting.ValuesOnce(db.friends, e.friends)
    ensures forall k :: k in db.friends ==> db.friends[k] in e.friends
    ensures forall f :: f in e.friends ==> f in db.friends.Values
    ensures |e.posts| == (if |db.posts| > MaxExportPosts then MaxExportPosts else |db.posts|)
    ensures forall p :: p in e.posts ==> p in db.posts.Values
    ensures forall i, j :: 0 <= i < j < |e.posts| ==> e.posts[i].created >= e.posts[j].created
    ensures forall k :: k in db.posts && db.posts[k] !in e.posts ==>
      forall i :: 0 <= i < |e.posts| ==> e.posts[i].created >= db.posts[k].created
    ensures exists ps :: NewestListing(db.posts, ps) && e.posts == Cap(ps)
    ensures e.stats.postsTotal == |e.posts|
    ensures e.stats.friendsTotal == |db.friends| && e.stats.friendsAlive == |Store.AliveLinks(db)|
  {
    var fr := Store.ListFriends(db);
    var ps := Store.ListPosts(db);
    var st := Store.Stats(db, now);
    var r := ToJson(Success(fr), Success(ps), Success(st));
    e := r.value;
    CapKeepsNewest(db.posts, ps);
    CappedListing(db.posts, ps);
    assert NewestListing(db.posts, ps);
  }

  /** Capping a newest-first listing of every post: at most
      `MaxExportPosts` stored posts, still newest first. */
  lemma CappedListing(m: map<string, Post>, ps: seq<Post>)
    requires |ps| == |m|
    requires forall p :: p in ps ==> p in m.Values
    requires forall i, j :: 0 <= i < j < |ps| ==> ps[i].created >= ps[j].created
    ensures |Cap(ps)| == (if |m| > MaxExportPosts then MaxExportPosts else |m|)
    ensures forall p :: p in Cap(ps) ==> p in m.Values
    ensures forall i, j :: 0 <= i < j < |Cap(ps)| ==> Cap(ps)[i].created >= Cap(ps)[j].created
  {
    var capped := Cap(ps);
    forall p | p in capped ensures p in m.Values {
      var i :| 0 <= i < |capped| && capped[i] == p;
      assert ps[i] == p;
    }
  }

  /** Capping a newest-first listing of every post leaves out only posts
      no newer than any it keeps. */
  lemma CapKeepsNewest(m: map<string, Post>, ps: seq<Post>)
    requires forall k :: k in m ==> m[k] in ps
    requires forall i, j :: 0 <= i < j < |ps| ==> ps[i].created >= ps[j].created
    ensures forall k :: k in m && m[k] !in Cap(ps) ==>
      forall i :: 0 <= i < |Cap(ps)| ==> Cap(ps)[i].created >= m[k].created
  {
    var capped := Cap(ps);
    forall k | k in m && m[k] !in capped
      ensures forall i :: 0 <= i < |capped| ==> capped[i].created >= m[k].created
    {
      var j :| 0 <= j < |ps| && ps[j] == m[k];
      forall i | 0 <= i < |capped| ensures capped[i].created >= m[k].created {
        assert capped[i] == ps[i];
      }
    }
  }
}

=== FILE: feeds.dfy ===
/** Feed discovery and item normalisation of internal/feeds/discover.go: the
    ordered candidate list, the content-sniffing probe, the `<link>`
    autodiscovery fallback, the two URL-joining modes and `ParseFeed`'s
    normalising loop. Network, HTML and feed parsing come from `Net`. */
module Feeds {
  import opened Wrappers
  import opened Text
  import opened Seqs
  import opened Html
  import opened Urls
  import opened Oracles
  import opened Model

  // ---------------------------------------------------------------------
  // URL joining

  /** `joinURL`: resolve `ref` against `base`, keeping any `ref` that starts
      with "http" and concatenating when either side fails to parse. */
  function JoinUrl(lib: UrlLib, base: string, ref: string): (r: string)
    ensures HasPrefix(ref, "http") ==> r == ref
    ensures !HasPrefix(ref, "http") && (lib.parse(base).None? || lib.parse(ref).None?) ==> r == base + ref
    ensures !HasPrefix(ref, "http") && lib.parse(base).Some? && lib.parse(ref).Some? ==>
      r == lib.format(lib.resolve(lib.parse(base).value, lib.parse(ref).value))
  {
    if HasPrefix(ref, "http") then ref
    else
      match lib.parse(base)
      case None => base + ref
      case Some(u) =>
        match lib.parse(ref)
        case None => base + ref
        case Some(ru) => lib.format(lib.resolve(u, ru))
  }

  /** The prefix test is on "http", not on a scheme: a relative reference
      such as "httpfeed.xml" is taken verbatim and never resolved. */
  lemma JoinUrlKeepsHttpLookalike(lib: UrlLib, base: string)
    ensures JoinUrl(lib, base, "httpfeed.xml") == "httpfeed.xml"
  {
    assert HasPrefix("httpfeed.xml", "http");
  }

  /** The parsed base with its path forced to end in "/". */
  function AsDirectory(u: Url): (d: Url)
    ensures HasSuffix(d.path, "/")
    ensures d.(path := u.path) == u
    ensures d.path == u.path || d.path == u.path + "/"
    ensures HasSuffix(u.path, "/") ==> d == u
  {
    if HasSuffix(u.path, "/") then u else u.(path := u.path + "/")
  }

  /** The unparsable base with a "/" appended unless it already ends so. */
  function DirString(s: string): (r: string)
    ensures HasSuffix(r, "/")
    ensures r == s || r == s + "/"
    ensures HasSuffix(s, "/") ==> r == s
  {
    if HasSuffix(s, "/") then s else s + "/"
  }

  /** `joinURLDir`: like `JoinUrl` but the base is treated as a directory
      and one leading "/" of `ref` is dropped, so `https://h/blog` and
      "index.xml" give `https://h/blog/index.xml`. */
  function JoinUrlDir(lib: UrlLib, base: string, ref: string): (r: string)
    ensures HasPrefix(ref, "http") ==> r == ref
    ensures !HasPrefix(ref, "http") && lib.parse(base).None? ==> r == DirString(base) + TrimPrefix(ref, "/")
    ensures !HasPrefix(ref, "http") && lib.parse(base).Some? ==>
      var d := AsDirectory(lib.parse(base).value);
      var rel := TrimPrefix(ref, "/");
      r == (if lib.parse(rel).Some? then lib.format(lib.resolve(d, lib.parse(rel).value)) else lib.format(d) + rel)
  {
    if HasPrefix(ref, "http") then ref
    else
      var rel := TrimPrefix(ref, "/");
      match lib.parse(base)
      case None => DirString(base) + rel
      case Some(u) =>
        var d := AsDirectory(u);
        match lib.parse(rel)
        case None => lib.format(d) + rel
        case Some(ru) => lib.format(lib.resolve(d, ru))
  }

  /** The two modes agree when the base already is a directory and the
      reference is relative without a leading "/". */
  lemma JoinModesAgreeOnDirectories(lib: UrlLib, base: string, ref: string)
    requires lib.parse(base).Some? && HasSuffix(lib.parse(base).value.path, "/")
    requires !HasPrefix(ref, "/") && !HasPrefix(ref, "http")
    ensures JoinUrlDir(lib, base, ref) == JoinUrl(lib, base, ref) || lib.parse(ref).None?
  {
  }

  // ---------------------------------------------------------------------
  // The probe classifier

  /** Only this many leading bytes of a probed body are inspected. */
  const HeadLimit := 2048

  const JsonFeedVersion := "\"version\":\"https://jsonfeed.org/version"

  function Head(body: Bytes): (h: Bytes)
    ensures |h| == (if |body| <= HeadLimit then |body| else HeadLimit)
    ensures h == body[..|h|]
  {
    if |body| <= HeadLimit then body else body[..HeadLimit]
  }

  predicate XmlType(ct: string) {
    Contains(ct, "rss") || Contains(ct, "atom") || Contains(ct, "xml")
  }

  predicate JsonFeedMarked(lb: string) {
    Contains(lb, "jsonfeed") || Contains(lb, JsonFeedVersion)
  }

  predicate FeedMarkup(lb: string) {
    Contains(lb, "<rss") || Contains(lb, "<feed") || Contains(lb, "<rdf") || Contains(lb, JsonFeedVersion)
  }

  lemma FeedJsonIsJson(ct: string)
    requires Contains(ct, "feed+json")
    ensures Contains(ct, "json")
  {
    var i :| OccursAt(ct, "feed+json", i);
    assert ct[i + 5..i + 9] == "feed+json"[5..];
    assert OccursAt(ct, "json", i + 5);
  }

  /** `probeFeed`'s verdict on a 2xx response: a feed-like Content-Type
      decides outright; a JSON one needs a JSON-Feed marker in the head;
      anything else is sniffed for feed markup in the head. */
  predicate LooksLikeFeed(contentType: string, body: Bytes)
    ensures XmlType(Lower(contentType)) ==> LooksLikeFeed(contentType, body)
    ensures !XmlType(Lower(contentType)) && Contains(Lower(contentType), "json") ==>
      (LooksLikeFeed(contentType, body) <==> JsonFeedMarked(Lower(Head(body))))
    ensures !XmlType(Lower(contentType)) && !Contains(Lower(contentType), "json") ==>
      (LooksLikeFeed(contentType, body) <==> FeedMarkup(Lower(Head(body))))
  {
    var ct := Lower(contentType);
    if XmlType(ct) then true
    else if Contains(ct, "json") || Contains(ct, "feed+json") then
      assert Contains(ct, "feed+json") ==> Contains(ct, "json") by {
        if Contains(ct, "feed+json") { FeedJsonIsJson(ct); }
      }
      JsonFeedMarked(Lower(Head(body)))
    else FeedMarkup(Lower(Head(body)))
  }

  /** A non-XML type naming "feed+json" is judged by the JSON Feed marker
      alone, like any other JSON type. */
  lemma FeedJsonJudgedAsJson(contentType: string, body: Bytes)
    requires !XmlType(Lower(contentType))
    requires Contains(Lower(contentType), "feed+json")
    ensures LooksLikeFeed(contentType, body) == JsonFeedMarked(Lower(Head(body)))
  {
    FeedJsonIsJson(Lower(contentType));
  }

  /** Bytes past the head never change the verdict. */
  lemma VerdictIgnoresTail(contentType: string, body: Bytes, more: Bytes)
    requires |body| >= HeadLimit
    ensures LooksLikeFeed(contentType, body + more) == LooksLikeFeed(contentType, body)
  {
    assert Head(body + more) == Head(body);
  }

  /** The Content-Type test ignores case. */
  lemma VerdictIgnoresTypeCase(contentType: string, body: Bytes)
    ensures LooksLikeFeed(Lower(contentType), body) == LooksLikeFeed(contentType, body)
  {
    LowerIdempotent(contentType);
  }

  /** `probeFeed`: an unreachable URL is not a feed. */
  predicate Probe(net: Net, u: string)
    ensures net.fetch(u).Failure? ==> !Probe(net, u)
    ensures net.fetch(u).Success? ==>
      (Probe(net, u) <==> LooksLikeFeed(net.fetch(u).value.contentType, net.fetch(u).value.body))
  {
    match net.fetch(u)
    case Failure(_) => false
    case Success(resp) => LooksLikeFeed(resp.contentType, resp.body)
  }

  // ---------------------------------------------------------------------
  // Candidates and discovery

  /** Feed file names tried relative to the site as a directory. */
  const DirNames: seq<string> := ["index.xml", "atom.xml", "rss.xml", "feed", "feed.xml"]

  /** Endpoints tried relative to the site root: generic paths, the
      WordPress query form, alternate layouts, JSON Feed, one REST path. */
  const RootPaths: seq<string> := [
    "/feed", "/feed/", "/feed.xml", "/index.xml", "/atom.xml", "/rss.xml", "/rss2.xml",
    "/rss.php", "/feed.php", "/rss", "/atom", "/index.rss", "/index.atom",
    "/?feed=rss2", "/?feed=atom", "/?feed=rss",
    "/feed/atom", "/posts/index.xml", "/blog/index.xml",
    "/index.json", "/feed.json",
    "/api/rss"]

  /** The probing order of `DiscoverFeed`: the suffix hint in both modes
      when given, then the five directory-relative names, then the 22 root
      endpoints. */
  function Candidates(lib: UrlLib, site: string, suffix: string): (r: seq<string>)
    ensures |r| == (if suffix != "" then 29 else 27)
    ensures suffix != "" ==> r[0] == JoinUrl(lib, site, suffix) && r[1] == JoinUrlDir(lib, site, suffix)
    ensures forall i :: 0 <= i < 5 ==> r[|r| - 27 + i] == JoinUrlDir(lib, site, DirNames[i])
    ensures forall i :: 0 <= i < 22 ==> r[|r| - 22 + i] == JoinUrl(lib, site, RootPaths[i])
  {
    var hinted := if suffix != "" then [JoinUrl(lib, site, suffix), JoinUrlDir(lib, site, suffix)] else [];
    var tail := DirCandidates(lib, site) + RootCandidates(lib, site);
    assert forall i :: 0 <= i < 5 ==> tail[i] == JoinUrlDir(lib, site, DirNames[i]);
    assert forall i :: 0 <= i < 22 ==> tail[5 + i] == JoinUrl(lib, site, RootPaths[i]);
    var r := hinted + tail;
    assert forall i :: 0 <= i < 27 ==> r[|hinted| + i] == tail[i];
    r
  }

  /** The five directory-style candidates, in order. */
  function DirCandidates(lib: UrlLib, site: string): (r: seq<string>)
    ensures |r| == 5
    ensures forall i :: 0 <= i < 5 ==> r[i] == JoinUrlDir(lib, site, DirNames[i])
  {
    seq(5, i requires 0 <= i < 5 => JoinUrlDir(lib, site, DirNames[i]))
  }

  /** The 22 root-path candidates, in order. */
  function RootCandidates(lib: UrlLib, site: string): (r: seq<string>)
    ensures |r| == 22
    ensures forall i :: 0 <= i < 22 ==> r[i] == JoinUrl(lib, site, RootPaths[i])
  {
    seq(22, i requires 0 <= i < 22 => JoinUrl(lib, site, RootPaths[i]))
  }

  /** One of the two `<link>` rules: an alternate link of a feed type, or
      an untyped link whose href has a feed-like extension. */
  predicate FeedLink(l: Node) {
    var lt := Lower(Attr(l, "type"));
    var lr := Lower(Attr(l, "rel"));
    var lh := Lower(Attr(l, "href"));
    || (Contains(lr, "alternate") && (Contains(lt, "rss") || Contains(lt, "atom") || Contains(lt, "json")))
    || (lt == "" && (HasSuffix(lh, ".xml") || HasSuffix(lh, ".rss") || HasSuffix(lh, ".atom") || HasSuffix(lh, ".json")))
  }

  /** The `<link>` elements of a document, in document order. */
  function LinkTags(net: Net, doc: Node): seq<Node> {
    Find(doc, "link", net.matches)
  }

  /** `links[i]` is the first `<link>` satisfying either rule. */
  predicate FirstFeedLink(links: seq<Node>, i: int) {
    0 <= i < |links| && FeedLink(links[i]) && forall j :: 0 <= j < i ==> !FeedLink(links[j])
  }

  /** There is at most one first feed link. */
  lemma FirstFeedLinkUnique(links: seq<Node>, i: int, k: int)
    requires FirstFeedLink(links, i) && FirstFeedLink(links, k)
    ensures i == k
  {
  }

  /** The autodiscovery pick: the href, joined to the site, of the first
      `<link>` satisfying either rule; "" when there is none. */
  function LinkCandidate(net: Net, site: string, doc: Node): (r: string)
    ensures r != "" ==>
      exists i :: FirstFeedLink(LinkTags(net, doc), i)
        && r == JoinUrl(net.urls, site, Attr(LinkTags(net, doc)[i], "href"))
    ensures forall i :: FirstFeedLink(LinkTags(net, doc), i) ==>
      r == JoinUrl(net.urls, site, Attr(LinkTags(net, doc)[i], "href"))
    ensures (forall l :: l in LinkTags(net, doc) ==> !FeedLink(l)) ==> r == ""
  {
    var links := LinkTags(net, doc);
    match FirstIndex(links, FeedLink)
    case None => ""
    case Some(i) =>
      assert FirstFeedLink(links, i);
      forall k | FirstFeedLink(links, k) ensures k == i {
        FirstFeedLinkUnique(links, i, k);
      }
      JoinUrl(net.urls, site, Attr(links[i], "href"))
  }

  /** The HTML fallback of `DiscoverFeed`, after every candidate failed. */
  function DiscoverFromHtml(net: Net, site: string): (r: Result<string>)
    ensures r.Success? ==> r.value != "" && Probe(net, r.value)
    ensures r.Failure? ==> r.error != ""
  {
    match net.fetch(site)
    case Failure(e) => Failure("GET site " + site + ": " + e)
    case Success(resp) =>
      match net.parseHtml(resp.body)
      case Failure(e) => Failure("parse html: " + e)
      case Success(doc) =>
        var found := LinkCandidate(net, site, doc);
        if found != "" && Probe(net, found) then Success(found)
        else Failure("no feed discovered for " + site)
  }

  /** `DiscoverFeed`: the first candidate that probes as a feed, else the
      HTML autodiscovery fallback. Whatever it returns probes as a feed, and
      it fails only after every candidate failed, with a non-empty message. */
  function Discover(net: Net, site: string, suffix: string): (r: Result<string>)
    ensures r.Success? ==> Probe(net, r.value)
    ensures r.Failure? ==> r.error != ""
    ensures r.Failure? ==> forall c :: c in Candidates(net.urls, site, suffix) ==> !Probe(net, c)
  {
    var cands := Candidates(net.urls, site, suffix);
    match FirstIndex(cands, (u: string) => Probe(net, u))
    case Some(i) => Success(cands[i])
    case None => DiscoverFromHtml(net, site)
  }

  /** Discovery returns the first candidate in list order that probes as a
      feed, whatever comes later. */
  lemma DiscoverFindsFirstCandidate(net: Net, site: string, suffix: string, i: nat)
    requires i < |Candidates(net.urls, site, suffix)|
    requires Probe(net, Candidates(net.urls, site, suffix)[i])
    requires forall j :: 0 <= j < i ==> !Probe(net, Candidates(net.urls, site, suffix)[j])
    ensures Discover(net, site, suffix) == Success(Candidates(net.urls, site, suffix)[i])
  {
  }

  /** When every candidate fails and the first feed-like `<link>` of the
      site's page resolves to a URL that probes as a feed, discovery returns
      exactly that URL. */
  lemma DiscoverPicksFirstFeedLink(net: Net, site: string, suffix: string, i: nat)
    requires forall c :: c in Candidates(net.urls, site, suffix) ==> !Probe(net, c)
    requires net.fetch(site).Success? && net.parseHtml(net.fetch(site).value.body).Success?
    requires var links := LinkTags(net, net.parseHtml(net.fetch(site).value.body).value);
      && FirstFeedLink(links, i)
      && JoinUrl(net.urls, site, Attr(links[i], "href")) != ""
      && Probe(net, JoinUrl(net.urls, site, Attr(links[i], "href")))
    ensures var links := LinkTags(net, net.parseHtml(net.fetch(site).value.body).value);
      Discover(net, site, suffix) == Success(JoinUrl(net.urls, site, Attr(links[i], "href")))
  {
    DiscoverFallsBackToLinkTag(net, site, suffix);
  }

  /** With every candidate failing, discovery is exactly the HTML fallback:
      the autodiscovered link when it probes as a feed, otherwise the
      "no feed discovered" error. */
  lemma DiscoverFallsBackToLinkTag(net: Net, site: string, suffix: string)
    requires forall c :: c in Candidates(net.urls, site, suffix) ==> !Probe(net, c)
    requires net.fetch(site).Success? && net.parseHtml(net.fetch(site).value.body).Success?
    ensures var found := LinkCandidate(net, site, net.parseHtml(net.fetch(site).value.body).value);
      Discover(net, site, suffix) ==
        (if found != "" && Probe(net, found) then Success(found) else Failure("no feed discovered for " + site))
  {
  }

  // ---------------------------------------------------------------------
  // Item normalisation

  /** A normalised feed item (`feeds.Item`). */
  datatype Item = Item(title: string, link: string, author: string, created: int, updated: int)

  /** `pickTime`: the first present timestamp, else the zero time. */
  function PickTime(a: Option<int>, b: Option<int>): (t: int)
    ensures a.Some? ==> t == a.value
    ensures a.None? && b.Some? ==> t == b.value
    ensures a.None? && b.None? ==> t == ZeroTime
  {
    match a
    case Some(x) => x
    case None => b.GetOr(ZeroTime)
  }

  /** `authorName`: the author's name, else their e-mail, else "". */
  function AuthorName(author: Option<Person>): (r: string)
    ensures author.None? ==> r == ""
    ensures author.Some? && author.value.name != "" ==> r == author.value.name
    ensures author.Some? && author.value.name == "" ==> r == author.value.email
  {
    match author
    case None => ""
    case Some(p) => if p.name != "" then p.name else p.email
  }

  function Normalize(it: RawItem): (r: Item)
    ensures IsTrimmed(r.title) && IsTrimmed(r.link)
    ensures r.title == Trim(it.title) && r.link == Trim(it.link) && r.author == AuthorName(it.author)
    ensures it.published.Some? ==> r.created == it.published.value
    ensures it.updated.Some? ==> r.updated == it.updated.value
    ensures it.published.None? && it.updated.None? ==> r.created == ZeroTime && r.updated == ZeroTime
  {
    Item(Trim(it.title), Trim(it.link), AuthorName(it.author),
         PickTime(it.published, it.updated), PickTime(it.updated, it.published))
  }

  /** Created prefers the published time and Updated the updated time; with
      at most one of them present both fields carry the same value. */
  lemma NormalizeTimes(it: RawItem)
    ensures Normalize(it).title == Trim(it.title) && Normalize(it).link == Trim(it.link)
    ensures it.published.Some? ==> Normalize(it).created == it.published.value
    ensures it.updated.Some? ==> Normalize(it).updated == it.updated.value
    ensures it.published.None? || it.updated.None? ==> Normalize(it).created == Normalize(it).updated
    ensures it.published.None? && it.updated.None? ==> Normalize(it).created == ZeroTime
  {
  }

  /** `n` items capped at a positive `max`. */
  function Capped(n: int, max: int): int {
    if max > 0 && n > max then max else n
  }

  /** `ParseFeed`'s loop: append each normalised item and stop right after
      the append that reaches a positive `max`; `max <= 0` never stops. */
  function CollectItems(raw: seq<RawItem>, max: int): (r: seq<Item>)
    decreases |raw|
    ensures |r| == Capped(|raw|, max)
  {
    if raw == [] then []
    else if max == 1 then [Normalize(raw[0])]
    else [Normalize(raw[0])] + CollectItems(raw[1..], if max > 0 then max - 1 else max)
  }

  /** Each collected item is the normalised raw item at the same index. */
  lemma {:induction false} CollectItemsInOrder(raw: seq<RawItem>, max: int)
    decreases |raw|
    ensures forall i :: 0 <= i < |CollectItems(raw, max)| ==> CollectItems(raw, max)[i] == Normalize(raw[i])
  {
    if raw != [] && max != 1 {
      var m := if max > 0 then max - 1 else max;
      CollectItemsInOrder(raw[1..], m);
      var r := CollectItems(raw, max);
      var rest := CollectItems(raw[1..], m);
      assert r == [Normalize(raw[0])] + rest;
      forall i | 0 < i < |r| ensures r[i] == Normalize(raw[i]) {
        assert r[i] == rest[i - 1];
        assert raw[1..][i - 1] == raw[i];
      }
    }
  }

  /** The normalised items: all of them for `max <= 0`, else the first
      `min(#items, max)`, each in feed order. */
  function NormalizeItems(raw: seq<RawItem>, max: int): (r: seq<Item>)
    ensures max <= 0 ==> |r| == |raw|
    ensures max > 0 ==> |r| == (if |raw| < max then |raw| else max)
    ensures forall i :: 0 <= i < |r| ==> r[i] == Normalize(raw[i])
  {
    CollectItemsInOrder(raw, max);
    CollectItems(raw, max)
  }

  /** A capped result is a prefix of the uncapped one. */
  lemma CapIsPrefix(raw: seq<RawItem>, max: int)
    ensures NormalizeItems(raw, max) == NormalizeItems(raw, 0)[..|NormalizeItems(raw, max)|]
  {
  }

  /** `ParseFeed`: fetch, parse with the feed oracle, normalise and cap. */
  function ParseFeed(net: Net, feedUrl: string, max: int): (r: Result<seq<Item>>)
    ensures net.fetch(feedUrl).Failure? ==> r.Failure?
    ensures net.fetch(feedUrl).Success? && net.parseFeed(net.fetch(feedUrl).value.body).Success? ==>
      r == Success(NormalizeItems(net.parseFeed(net.fetch(feedUrl).value.body).value, max))
    ensures r.Failure? ==> r.error != ""
  {
    match net.fetch(feedUrl)
    case Failure(e) => Failure("GET feed " + feedUrl + ": " + e)
    case Success(resp) =>
      match net.parseFeed(resp.body)
      case Failure(e) => Failure("parse feed " + feedUrl + ": " + e)
      case Success(raw) => Success(NormalizeItems(raw, max))
  }
}

=== FILE: html.dfy ===
/** An abstract HTML document as goquery exposes it: element and text nodes,
    attribute lookup, text content and pre-order descendant search. CSS
    selector matching is an oracle `matches(selector, element)`. */
module Html {
  import opened Wrappers
  import opened Seqs

  datatype Node =
    | Element(tag: string, attrs: map<string, string>, children: seq<Node>)
    | TextNode(content: string)

  /** goquery's `Selection.Text()`: the text of every text node below `n`,
      in document order. */
  function Text(n: Node): string
    decreases n
  {
    match n
    case TextNode(s) => s
    case Element(_, _, cs) => TextOfAll(cs)
  }

  function TextOfAll(cs: seq<Node>): string
    decreases cs
  {
    if cs == [] then "" else Text(cs[0]) + TextOfAll(cs[1..])
  }

  /** goquery's `Selection.Attr(name)` with the presence flag dropped: the
      attribute's value, or "" when the node has no such attribute. */
  function Attr(n: Node, name: string): string {
    if n.Element? && name in n.attrs then n.attrs[name] else ""
  }

  /** The element nodes strictly below `n`, in pre-order (document order). */
  function Below(n: Node): seq<Node>
    decreases n
  {
    match n
    case TextNode(_) => []
    case Element(_, _, cs) => BelowAll(cs)
  }

  function BelowAll(cs: seq<Node>): seq<Node>
    decreases cs
  {
    if cs == [] then []
    else (if cs[0].Element? then [cs[0]] + Below(cs[0]) else []) + BelowAll(cs[1..])
  }

  /** The selector oracle: does the element match the CSS selector? */
  type Matcher = (string, Node) -> bool

  /** goquery's `scope.Find(sel)`: matching descendants in document order. */
  function Find(scope: Node, sel: string, matches: Matcher): (r: seq<Node>)
    ensures forall i :: 0 <= i < |r| ==> matches(sel, r[i]) && r[i] in Below(scope)
    ensures forall x :: x in Below(scope) && matches(sel, x) ==> x in r
  {
    Filter(Below(scope), (x: Node) => matches(sel, x))
  }

  /** goquery's `scope.Find(sel).First()`: the first matching descendant in
      document order, or None. */
  function First(scope: Node, sel: string, matches: Matcher): (r: Option<Node>)
    ensures r.Some? ==> r.value in Below(scope) && matches(sel, r.value)
    ensures r.None? ==> forall x :: x in Below(scope) ==> !matches(sel, x)
  {
    match FirstIndex(Below(scope), (x: Node) => matches(sel, x))
    case None => None
    case Some(i) => Some(Below(scope)[i])
  }
}

=== FILE: logx.dfy ===
/** The decision logic of internal/logx/logx.go: level parsing, the level
    filter, locale-dependent labels, ANSI colouring, colour-mode selection and
    the immutable handler derivations `WithAttrs`/`WithGroup`. Levels are
    slog's integers. */
module Logx {
  import opened Text

  const LevelDebug := -4
  const LevelInfo := 0
  const LevelWarn := 4
  const LevelError := 8
  /** The level that `none`/`silent`/`off` configure: nothing passes it. */
  const LevelSilent := 100

  const SilentNames := {"none", "silent", "off"}

  /** `parseSlogLevel`: case-insensitive, surrounding white space ignored,
      Info for anything unrecognised (including ""). */
  function ParseLevel(s: string): (r: int)
    ensures r in {LevelDebug, LevelInfo, LevelWarn, LevelError, LevelSilent}
    ensures Trim(s) == "" ==> r == LevelInfo
    ensures Lower(Trim(s)) == "debug" ==> r == LevelDebug
    ensures Lower(Trim(s)) in {"warn", "warning"} ==> r == LevelWarn
    ensures Lower(Trim(s)) == "error" ==> r == LevelError
    ensures Lower(Trim(s)) in SilentNames ==> r == LevelSilent
  {
    LevelOfKey(Lower(Trim(s)))
  }

  /** The level named by an already normalised key. */
  function LevelOfKey(k: string): (r: int)
    ensures k == "debug" ==> r == LevelDebug
    ensures k in {"warn", "warning"} ==> r == LevelWarn
    ensures k == "error" ==> r == LevelError
    ensures k in SilentNames ==> r == LevelSilent
    ensures k !in {"debug", "warn", "warning", "error"} + SilentNames ==> r == LevelInfo
    ensures r in {LevelDebug, LevelInfo, LevelWarn, LevelError, LevelSilent}
  {
    if k == "debug" then LevelDebug
    else if k == "warn" || k == "warning" then LevelWarn
    else if k == "error" then LevelError
    else if k in SilentNames then LevelSilent
    else LevelInfo
  }

  /** Case folding keeps a trimmed string trimmed. */
  lemma LowerKeepsTrimmed(t: string)
    requires IsTrimmed(t)
    ensures IsTrimmed(Lower(t))
  {
  }

  /** Parsing ignores case and surrounding white space: the normalised text
      parses to the same level. */
  lemma ParseLevelNormalised(s: string)
    ensures ParseLevel(Lower(Trim(s))) == ParseLevel(s)
  {
    var t := Trim(s);
    LowerKeepsTrimmed(t);
    TrimOfTrimmed(Lower(t));
    LowerIdempotent(t);
    assert Lower(Trim(Lower(t))) == Lower(t);
  }

  /** The configured minimum of a handler: a fixed `slog.Level`, or some
      other `slog.Leveler` (for which the pretty handler passes everything). */
  datatype Leveler = Fixed(level: int) | Dynamic

  datatype Attr = Attr(key: string, value: string)

  /** `PrettyHandler` without its writer and mutex. */
  datatype Handler = Handler(level: Leveler, locale: string, color: bool, attrs: seq<Attr>, group: string)

  /** `PrettyHandler.Enabled`. */
  predicate Enabled(h: Handler, l: int)
    ensures h.level.Fixed? ==> (Enabled(h, l) <==> l >= h.level.level && h.level.level < LevelSilent)
    ensures h.level.Dynamic? ==> Enabled(h, l)
  {
    match h.level
    case Fixed(c) => l >= c && c < LevelSilent
    case Dynamic => true
  }

  /** A silenced handler lets nothing through. */
  lemma SilencedPassesNothing(h: Handler, s: string, l: int)
    requires h.level == Fixed(ParseLevel(s))
    requires Lower(Trim(s)) in SilentNames
    ensures !Enabled(h, l)
  {
  }

  /** The filter is upward closed: a level above an enabled one is enabled. */
  lemma EnabledUpward(h: Handler, l: int, m: int)
    requires Enabled(h, l) && l <= m
    ensures Enabled(h, m)
  {
  }

  /** `[L<n>]`, the label of a level without a name. */
  function NumericLabel(l: int): string {
    "[L" + IntString(l) + "]"
  }

  /** `levelLabel`: Chinese labels for a locale starting with "zh" (any
      case), English otherwise. */
  function LevelLabel(locale: string, l: int): (r: string)
    ensures l !in {LevelDebug, LevelInfo, LevelWarn, LevelError} ==> r == NumericLabel(l)
    ensures HasPrefix(Lower(locale), "zh") && l == LevelDebug ==> r == "[调试]"
    ensures HasPrefix(Lower(locale), "zh") && l == LevelInfo ==> r == "[信息]"
    ensures HasPrefix(Lower(locale), "zh") && l == LevelWarn ==> r == "[警告]"
    ensures HasPrefix(Lower(locale), "zh") && l == LevelError ==> r == "[错误]"
    ensures !HasPrefix(Lower(locale), "zh") && l == LevelDebug ==> r == "[DEBUG]"
    ensures !HasPrefix(Lower(locale), "zh") && l == LevelInfo ==> r == "[INFO]"
    ensures !HasPrefix(Lower(locale), "zh") && l == LevelWarn ==> r == "[WARN]"
    ensures !HasPrefix(Lower(locale), "zh") && l == LevelError ==> r == "[ERROR]"
  {
    if HasPrefix(Lower(locale), "zh") then
      if l == LevelDebug then "[调试]"
      else if l == LevelInfo then "[信息]"
      else if l == LevelWarn then "[警告]"
      else if l == LevelError then "[错误]"
      else NumericLabel(l)
    else
      if l == LevelDebug then "[DEBUG]"
      else if l == LevelInfo then "[INFO]"
      else if l == LevelWarn then "[WARN]"
      else if l == LevelError then "[ERROR]"
      else NumericLabel(l)
  }

  /** The locale test ignores case: folding the locale changes no label. */
  lemma LabelIgnoresLocaleCase(locale: string, l: int)
    ensures LevelLabel(Lower(locale), l) == LevelLabel(locale, l)
  {
    LowerIdempotent(locale);
  }

  /** In either language the four named levels get four different labels,
      and none of them looks like a numeric label. */
  lemma NamedLabelsDistinct(locale: string, a: int, b: int)
    requires a in {LevelDebug, LevelInfo, LevelWarn, LevelError}
    requires b in {LevelDebug, LevelInfo, LevelWarn, LevelError}
    requires a != b
    ensures LevelLabel(locale, a) != LevelLabel(locale, b)
    ensures LevelLabel(locale, a)[1] != 'L'
  {
  }

  /** The ANSI colour code of a level: 90/36/33/31, or 0. */
  function ColorCode(l: int): (r: string)
    ensures l == LevelDebug ==> r == "90"
    ensures l == LevelInfo ==> r == "36"
    ensures l == LevelWarn ==> r == "33"
    ensures l == LevelError ==> r == "31"
    ensures l !in {LevelDebug, LevelInfo, LevelWarn, LevelError} ==> r == "0"
    ensures forall i :: 0 <= i < |r| ==> IsDigit(r[i])
  {
    if l == LevelDebug then "90"
    else if l == LevelInfo then "36"
    else if l == LevelWarn then "33"
    else if l == LevelError then "31"
    else "0"
  }

  const Escape := "\U{001B}["
  const ResetColor := "\U{001B}[0m"

  /** `colorize`: wrap `s` in the level's colour and a reset. */
  function Colorize(s: string, l: int): (r: string)
    ensures HasPrefix(r, Escape) && HasSuffix(r, ResetColor)
    ensures |r| == |s| + |ColorCode(l)| + 7
    ensures r[|Escape|..|Escape| + |ColorCode(l)| + 1] == ColorCode(l) + "m"
  {
    Escape + ColorCode(l) + "m" + s + ResetColor
  }

  /** Remove one colour wrapper: the text between the first 'm' after the
      escape and the trailing reset. Text without a wrapper is returned. */
  function StripColor(r: string): string {
    if HasPrefix(r, Escape) && HasSuffix(r, ResetColor) then
      var k := IndexOf(r, "m");
      if 0 <= k && k + 1 <= |r| - |ResetColor| then r[k + 1..|r| - |ResetColor|] else r
    else r
  }

  /** Colouring loses nothing: stripping the wrapper gives back the text. */
  lemma StripColorize(s: string, l: int)
    ensures StripColor(Colorize(s, l)) == s
  {
    var code := ColorCode(l);
    var r := Colorize(s, l);
    var k := |Escape| + |code|;
    assert OccursAt(r, "m", k) by {
      assert r[k..k + 1] == "m";
    }
    forall i | 0 <= i < k ensures !OccursAt(r, "m", i) {
      if i < |Escape| {
        assert r[i] == Escape[i];
      } else {
        assert r[i] == code[i - |Escape|];
      }
      assert r[i..i + 1][0] == r[i];
    }
    assert IndexOf(r, "m") == k;
    assert r[k + 1..|r| - |ResetColor|] == s;
  }

  /** `shouldColor`, with the environment and the terminal check passed in:
      `noColor` is $NO_COLOR and `isTerminal` says the writer is a character
      device. */
  function ShouldColor(noColor: string, isTerminal: bool, mode: string): (r: bool)
    ensures noColor != "" ==> !r
    ensures noColor == "" && Lower(Trim(mode)) == "always" ==> r
    ensures Lower(Trim(mode)) !in {"always", "auto", ""} ==> !r
    ensures r ==> noColor == "" && (Lower(Trim(mode)) == "always" || isTerminal)
    ensures noColor == "" && Lower(Trim(mode)) in {"auto", ""} ==> (r <==> isTerminal)
  {
    if noColor != "" then false
    else
      var m := Lower(Trim(mode));
      if m == "always" then true
      else if m == "never" then false
      else if m == "auto" || m == "" then isTerminal
      else false
  }

  /** `NewPrettyHandler`: the locale defaults to zh-CN. */
  function NewPrettyHandler(lv: Leveler, locale: string, colorMode: string, noColor: string, isTerminal: bool): (h: Handler)
    ensures h.locale == (if locale == "" then "zh-CN" else locale)
    ensures h.level == lv && h.attrs == [] && h.group == ""
    ensures h.color == ShouldColor(noColor, isTerminal, colorMode)
  {
    Handler(lv, if locale == "" then "zh-CN" else locale, ShouldColor(noColor, isTerminal, colorMode), [], "")
  }

  /** `WithAttrs`: a copy with the attributes appended. */
  function WithAttrs(h: Handler, attrs: seq<Attr>): (r: Handler)
    ensures |r.attrs| == |h.attrs| + |attrs|
    ensures r.attrs[..|h.attrs|] == h.attrs && r.attrs[|h.attrs|..] == attrs
    ensures r.(attrs := h.attrs) == h
  {
    h.(attrs := h.attrs + attrs)
  }

  /** `WithGroup`: the group path grows by one dotted name. */
  function WithGroup(h: Handler, name: string): (r: Handler)
    ensures r.(group := h.group) == h
    ensures r.group == Dotted(h.group, name)
  {
    h.(group := if h.group == "" then name else h.group + "." + name)
  }

  function Dotted(prefix: string, name: string): string {
    if prefix == "" then name else prefix + "." + name
  }

  /** Successive `WithGroup` calls. */
  function WithGroups(h: Handler, names: seq<string>): Handler
    decreases |names|
  {
    if names == [] then h else WithGroups(WithGroup(h, names[0]), names[1..])
  }

  /** Nested groups form the dotted path of their names. */
  lemma {:induction false} GroupPath(h: Handler, names: seq<string>)
    requires |names| >= 1
    requires forall i :: 0 <= i < |names| ==> names[i] != ""
    ensures WithGroups(h, names).group == Dotted(h.group, Join(names, "."))
    decreases |names|
  {
    var h1 := WithGroup(h, names[0]);
    if |names| > 1 {
      GroupPath(h1, names[1..]);
      assert h1.group != "";
    }
  }

  /** Successive `WithAttrs` calls accumulate in call order. */
  lemma AttrsAccumulate(h: Handler, a: seq<Attr>, b: seq<Attr>)
    ensures WithAttrs(WithAttrs(h, a), b) == WithAttrs(h, a + b)
  {
  }
}

=== FILE: model.dfy ===
/** The exported record shapes of internal/model/types.go. Times are whole
    seconds; the zero `time.Time` is 0. */
module Model {

  /** A tracked site; `link` is its identity. `error` is "" when the last
      feed discovery succeeded. */
  datatype Friend = Friend(name: string, link: string, avatar: string, error: string, createdAt: int)

  /** A normalised article; `link` is its identity and `rule` names the
      origin ("feed"). */
  datatype Post = Post(
    title: string,
    created: int,
    updated: int,
    link: string,
    author: string,
    avatar: string,
    rule: string,
    createdAt: int)

  datatype Stats = Stats(friendsTotal: int, friendsAlive: int, friendsError: int, postsTotal: int, updatedAt: int)

  /** The top-level shape of the exported data.json. */
  datatype Export = Export(stats: Stats, friends: seq<Friend>, posts: seq<Post>)

  /** Go's zero `time.Time`. */
  const ZeroTime: int := 0

  /** Every friend is stored under its own link. */
  predicate FriendsKeyed(m: map<string, Friend>) {
    forall k :: k in m ==> m[k].link == k
  }

  /** Every post is stored under its own link. */
  predicate PostsKeyed(m: map<string, Post>) {
    forall k :: k in m ==> m[k].link == k
  }
}

=== FILE: oracles.dfy ===
/** The collaborators the aggregator calls but does not implement: the HTTP
    transport (with retries and the non-2xx check folded in), goquery's HTML
    parser, gofeed's feed parser, `net/url` and the CSS selector engine. */
module Oracles {
  import opened Wrappers
  import opened Html
  import opened Urls

  /** Raw bytes as a string of one character per byte, the way the body
      arrives off the wire before anything decodes it as UTF-8. */
  type Bytes = s: string | forall i :: 0 <= i < |s| ==> s[i] as int < 256

  /** A 2xx response: its Content-Type header ("" when absent) and its
      undecoded body. */
  datatype Response = Response(contentType: string, body: Bytes)

  /** gofeed's `Person`. */
  datatype Person = Person(name: string, email: string)

  /** A gofeed item before normalisation; absent timestamps are None. */
  datatype RawItem = RawItem(
    title: string,
    link: string,
    author: Option<Person>,
    published: Option<int>,
    updated: Option<int>)

  /** `fetch(url)` is `Client.Get`: Failure carries the error text of a
      transport error or non-2xx status. */
  datatype Net = Net(
    fetch: string -> Result<Response>,
    parseHtml: string -> Result<Node>,
    parseFeed: string -> Result<seq<RawItem>>,
    urls: UrlLib,
    matches: Matcher)
}

=== FILE: page.dfy ===
/** Friends-page extraction of internal/friends/page.go: the selector DSL
    (`.`, `sel`, `sel@attr`, `@attr`, alternatives joined by "||"), link
    absolutisation and the per-item extraction loop. */
module Friends {
  import opened Wrappers
  import opened Text
  import opened Seqs
  import opened Html
  import opened Urls
  import opened Oracles
  import opened Rules
  import opened Config

  // ---------------------------------------------------------------------
  // Single expressions

  /** One alternative of the DSL, as `getValSingle` reads it. */
  datatype Single =
    | NoValue                            // ""
    | ScopeText                          // "."
    | ScopeAttr(attr: string)            // "@attr"
    | SelectorAttr(sel: string, attr: string)  // "sel@attr"
    | SelectorText(sel: string)          // "sel"

  /** The reading of one (already trimmed) alternative: "." first, then a
      split at the first '@' with both sides trimmed, else a bare selector. */
  function ParseSingle(expr: string): (r: Single)
    ensures expr == "" ==> r == NoValue
    ensures expr == "." ==> r == ScopeText
    ensures expr != "" && expr != "." && !Contains(expr, "@") ==> r == SelectorText(expr)
    ensures Contains(expr, "@") ==> r.ScopeAttr? || r.SelectorAttr?
    ensures r.ScopeAttr? ==> IsTrimmed(r.attr)
    ensures r.SelectorAttr? ==> r.sel != "" && IsTrimmed(r.sel) && IsTrimmed(r.attr)
  {
    if expr == "" then NoValue
    else if expr == "." then
      NoAt(expr);
      ScopeText
    else
      var at := IndexOf(expr, "@");
      if at == -1 then SelectorText(expr) else SplitAt(expr, at)
  }

  /** An attribute read split at `at`, both sides trimmed; an empty
      selector reads the scope itself. */
  function SplitAt(expr: string, at: nat): Single
    requires at < |expr|
  {
    var sel := Trim(expr[..at]);
    var attr := Trim(expr[at + 1..]);
    if sel == "" then ScopeAttr(attr) else SelectorAttr(sel, attr)
  }

  /** The canonical text of an expression. */
  function Show(e: Single): string {
    match e
    case NoValue => ""
    case ScopeText => "."
    case ScopeAttr(a) => "@" + a
    case SelectorAttr(s, a) => s + "@" + a
    case SelectorText(s) => s
  }

  /** The expressions `ParseSingle` can produce: trimmed parts, selectors
      without '@' (a bare selector is neither "" nor "."). */
  predicate WellFormed(e: Single) {
    match e
    case NoValue => true
    case ScopeText => true
    case ScopeAttr(a) => IsTrimmed(a)
    case SelectorAttr(s, a) => s != "" && IsTrimmed(s) && Free(s, '@') && IsTrimmed(a)
    case SelectorText(s) => s != "" && s != "." && Free(s, '@')
  }

  /** The first '@' of `s + "@" + a` is the one after `s`. */
  lemma {:induction false} FirstAt(s: string, a: string)
    requires Free(s, '@')
    ensures IndexOf(s + "@" + a, "@") == |s|
  {
    var t := s + "@" + a;
    assert OccursAt(t, "@", |s|) by {
      assert t[|s|..|s| + 1] == "@";
    }
    forall i | 0 <= i < |s| ensures !OccursAt(t, "@", i) {
      assert t[i..i + 1][0] == s[i];
    }
  }

  lemma {:induction false} NoAt(s: string)
    requires Free(s, '@')
    ensures IndexOf(s, "@") == -1
  {
    forall i | 0 <= i ensures !OccursAt(s, "@", i) {
      if i + 1 <= |s| {
        assert s[i..i + 1][0] == s[i];
      }
    }
  }

  lemma ParseShowScopeAttr(a: string)
    requires IsTrimmed(a)
    ensures ParseSingle("@" + a) == ScopeAttr(a)
  {
    var t := "@" + a;
    assert "" + "@" + a == t;
    FirstAt("", a);
    assert t[0] == '@';
    assert t != ".";
    assert Trim(t[..0]) == "";
    assert t[1..] == a;
    TrimOfTrimmed(a);
  }

  /** `sel@attr` with an '@'-free selector splits at that '@'. */
  lemma ParseSplitsAtFirstAt(s: string, a: string)
    requires s != "" && Free(s, '@')
    ensures ParseSingle(s + "@" + a) == SplitAt(s + "@" + a, |s|)
  {
    FirstAt(s, a);
  }

  /** Splitting `sel@attr` after trimmed parts gives the parts back. */
  lemma SplitAtTrimmed(s: string, a: string)
    requires s != "" && IsTrimmed(s) && IsTrimmed(a)
    ensures SplitAt(s + "@" + a, |s|) == SelectorAttr(s, a)
  {
    var t := s + "@" + a;
    assert t[..|s|] == s;
    assert t[|s| + 1..] == a;
    TrimOfTrimmed(s);
    TrimOfTrimmed(a);
  }

  lemma ParseShowSelectorAttr(s: string, a: string)
    requires s != "" && IsTrimmed(s) && Free(s, '@') && IsTrimmed(a)
    ensures ParseSingle(s + "@" + a) == SelectorAttr(s, a)
  {
    ParseSplitsAtFirstAt(s, a);
    SplitAtTrimmed(s, a);
  }

  /** Reading the canonical text gives the expression back. */
  lemma {:induction false} ParseShow(e: Single)
    requires WellFormed(e)
    ensures ParseSingle(Show(e)) == e
  {
    match e
    case NoValue =>
    case ScopeText =>
    case ScopeAttr(a) => ParseShowScopeAttr(a);
    case SelectorAttr(s, a) => ParseShowSelectorAttr(s, a);
    case SelectorText(s) => NoAt(s);
  }

  /** The value of one expression inside an item: text or attribute of the
      item itself or of its first matching descendant, trimmed; "" when the
      selector matches nothing or the attribute is absent. */
  function Eval(m: Matcher, scope: Node, e: Single): (r: string)
    ensures IsTrimmed(r)
    ensures e.NoValue? ==> r == ""
    ensures e.ScopeText? ==> r == Trim(Html.Text(scope))
    ensures e.ScopeAttr? ==> r == Trim(Attr(scope, e.attr))
    ensures e.SelectorAttr? && First(scope, e.sel, m).Some? ==> r == Trim(Attr(First(scope, e.sel, m).value, e.attr))
    ensures e.SelectorText? && First(scope, e.sel, m).Some? ==> r == Trim(Html.Text(First(scope, e.sel, m).value))
    ensures (e.SelectorAttr? || e.SelectorText?) && First(scope, e.sel, m).None? ==> r == ""
  {
    match e
    case NoValue => ""
    case ScopeText => Trim(Html.Text(scope))
    case ScopeAttr(a) => Trim(Attr(scope, a))
    case SelectorAttr(s, a) =>
      (match First(scope, s, m)
       case None => ""
       case Some(el) => Trim(Attr(el, a)))
    case SelectorText(s) =>
      (match First(scope, s, m)
       case None => ""
       case Some(el) => Trim(Html.Text(el)))
  }

  /** `getValSingle`. */
  function GetValSingle(m: Matcher, scope: Node, expr: string): (r: string)
    ensures IsTrimmed(r)
    ensures expr == "" ==> r == ""
  {
    Eval(m, scope, ParseSingle(expr))
  }

  /** "." reads the item's own text. */
  lemma GetValScopeText(m: Matcher, scope: Node)
    ensures GetValSingle(m, scope, ".") == Trim(Html.Text(scope))
  {
    assert ParseSingle(Show(ScopeText)) == ScopeText;
  }

  /** "@attr" reads the item's own attribute. */
  lemma GetValScopeAttr(m: Matcher, scope: Node, a: string)
    requires IsTrimmed(a)
    ensures GetValSingle(m, scope, "@" + a) == Trim(Attr(scope, a))
  {
    ParseShow(ScopeAttr(a));
  }

  /** "sel@attr" reads the attribute of the first descendant `sel`
      matches, and gives "" when none does. */
  lemma GetValSelectorAttr(m: Matcher, scope: Node, s: string, a: string)
    requires s != "" && IsTrimmed(s) && Free(s, '@') && IsTrimmed(a)
    ensures First(scope, s, m).Some? ==>
      GetValSingle(m, scope, s + "@" + a) == Trim(Attr(First(scope, s, m).value, a))
    ensures First(scope, s, m).None? ==> GetValSingle(m, scope, s + "@" + a) == ""
  {
    ParseShow(SelectorAttr(s, a));
  }

  /** "sel" reads the text of the first descendant `sel` matches, and
      gives "" when none does. */
  lemma GetValSelectorText(m: Matcher, scope: Node, s: string)
    requires s != "" && s != "." && Free(s, '@')
    ensures First(scope, s, m).Some? ==>
      GetValSingle(m, scope, s) == Trim(Html.Text(First(scope, s, m).value))
    ensures First(scope, s, m).None? ==> GetValSingle(m, scope, s) == ""
  {
    ParseShow(SelectorText(s));
  }

  // ---------------------------------------------------------------------
  // Alternatives

  /** Alternative `p` (trimmed) gives a value. */
  predicate Yields(m: Matcher, scope: Node, p: string) {
    GetValSingle(m, scope, Trim(p)) != ""
  }

  /** The first alternative (each trimmed) with a non-empty value, or "". */
  function FirstValue(m: Matcher, scope: Node, parts: seq<string>): (r: string)
    ensures IsTrimmed(r)
    ensures r == "" <==> forall i :: 0 <= i < |parts| ==> !Yields(m, scope, parts[i])
    ensures r != "" ==>
      exists i :: 0 <= i < |parts| && r == GetValSingle(m, scope, Trim(parts[i]))
        && forall j :: 0 <= j < i ==> !Yields(m, scope, parts[j])
  {
    var k := FirstIndex(parts, (p: string) => Yields(m, scope, p));
    if k.None? then "" else GetValSingle(m, scope, Trim(parts[k.value]))
  }

  /** `getVal`: trim, then try the "||"-separated alternatives in order. */
  function GetVal(m: Matcher, scope: Node, expr: string): (r: string)
    ensures IsTrimmed(r)
    ensures Trim(expr) == "" ==> r == ""
    ensures !Contains(Trim(expr), "||") ==> r == GetValSingle(m, scope, Trim(expr))
  {
    var t := Trim(expr);
    if t == "" then ""
    else if Contains(t, "||") then FirstValue(m, scope, Split(t, "||"))
    else GetValSingle(m, scope, t)
  }

  /** A single alternative is its own first value. */
  lemma FirstValueOne(m: Matcher, scope: Node, p: string)
    ensures FirstValue(m, scope, [p]) == GetValSingle(m, scope, Trim(p))
  {
    var r := FirstValue(m, scope, [p]);
    assert [p][0] == p;
    if Yields(m, scope, p) {
      var i :| 0 <= i < 1 && r == GetValSingle(m, scope, Trim([p][i]));
      assert i == 0;
    } else {
      assert r == "";
    }
  }

  /** Alternatives joined by "||" are tried left to right and the first
      non-empty value wins, for trimmed non-empty alternatives free of '|'. */
  lemma Fallback(m: Matcher, scope: Node, parts: seq<string>)
    requires |parts| >= 1
    requires forall k :: 0 <= k < |parts| ==> parts[k] != [] && IsTrimmed(parts[k]) && Free(parts[k], '|')
    ensures GetVal(m, scope, Join(parts, "||")) == FirstValue(m, scope, parts)
  {
    var t := Join(parts, "||");
    JoinTrimmed(parts, "||");
    TrimOfTrimmed(t);
    JoinContainsPipes(parts);
    if |parts| >= 2 {
      SplitJoin(parts);
      assert GetVal(m, scope, t) == FirstValue(m, scope, Split(t, "||"));
    } else {
      assert t == parts[0];
      FirstValueOne(m, scope, t);
      assert parts == [t];
      TrimOfTrimmed(t);
    }
  }

  // ---------------------------------------------------------------------
  // Absolutisation

  predicate IsAbsolute(ref: string) {
    HasPrefix(ref, "http://") || HasPrefix(ref, "https://")
  }

  /** `abs`: resolve a trimmed reference against the page URL; "" stays "",
      http(s) URLs and anything that fails to parse are kept as trimmed. */
  function Abs(lib: UrlLib, base: string, ref: string): (r: string)
    ensures Trim(ref) == "" ==> r == ""
    ensures IsAbsolute(Trim(ref)) ==> r == Trim(ref)
    ensures lib.parse(base).None? || lib.parse(Trim(ref)).None? ==> r == Trim(ref)
    ensures Trim(ref) != "" && !IsAbsolute(Trim(ref)) && lib.parse(base).Some? && lib.parse(Trim(ref)).Some? ==>
      r == lib.format(lib.resolve(lib.parse(base).value, lib.parse(Trim(ref)).value))
  {
    var t := Trim(ref);
    if t == "" then ""
    else if IsAbsolute(t) then t
    else
      match lib.parse(base)
      case None => t
      case Some(bu) =>
        match lib.parse(t)
        case None => t
        case Some(ru) => lib.format(lib.resolve(bu, ru))
  }

  /** Surrounding white space of the reference is irrelevant. */
  lemma AbsIgnoresSpace(lib: UrlLib, base: string, ref: string)
    ensures Abs(lib, base, Trim(ref)) == Abs(lib, base, ref)
  {
    TrimIdempotent(ref);
  }

  /** An http(s) result is a fixed point: absolutising it again keeps it. */
  lemma AbsFixesAbsolute(lib: UrlLib, base: string, ref: string)
    requires IsAbsolute(Abs(lib, base, ref)) && IsTrimmed(Abs(lib, base, ref))
    ensures Abs(lib, base, Abs(lib, base, ref)) == Abs(lib, base, ref)
  {
    TrimOfTrimmed(Abs(lib, base, ref));
  }

  // ---------------------------------------------------------------------
  // Extraction

  /** One matched item: name, absolutised link and avatar; skipped (None)
      when both name and link are empty. */
  function ExtractOne(net: Net, pageUrl: string, fp: FriendsPage, item: Node): (r: Option<StaticFriend>)
    ensures r.None? <==> GetVal(net.matches, item, fp.name) == "" && Abs(net.urls, pageUrl, GetVal(net.matches, item, fp.link)) == ""
    ensures r.Some? ==> r.value.name == GetVal(net.matches, item, fp.name) && IsTrimmed(r.value.name)
    ensures r.Some? ==> r.value.link == Abs(net.urls, pageUrl, GetVal(net.matches, item, fp.link))
    ensures r.Some? ==> r.value.avatar == Abs(net.urls, pageUrl, GetVal(net.matches, item, fp.avatar))
    ensures r.Some? ==> r.value.feedSuffix == ""
  {
    var name := GetVal(net.matches, item, fp.name);
    var link := Abs(net.urls, pageUrl, GetVal(net.matches, item, fp.link));
    var avatar := Abs(net.urls, pageUrl, GetVal(net.matches, item, fp.avatar));
    TrimOfTrimmed(name);
    var name' := Trim(name);
    if name' == "" && link == "" then None
    else Some(StaticFriend(name', link, avatar, ""))
  }

  /** The `Each` loop: the extracted friends of the kept items, in item
      order. Every friend comes from some item, and every kept item gives
      its friend. */
  function ExtractAll(net: Net, pageUrl: string, fp: FriendsPage, items: seq<Node>): (r: seq<StaticFriend>)
    ensures |r| <= |items|
    ensures forall f :: f in r ==> exists it :: it in items && ExtractOne(net, pageUrl, fp, it) == Some(f)
    ensures forall it :: it in items && ExtractOne(net, pageUrl, fp, it).Some? ==> ExtractOne(net, pageUrl, fp, it).value in r
  {
    FilterMap(items, (it: Node) => ExtractOne(net, pageUrl, fp, it))
  }

  /** No extracted friend has both an empty name and an empty link. */
  lemma ExtractedNotBlank(net: Net, pageUrl: string, fp: FriendsPage, items: seq<Node>, f: StaticFriend)
    requires f in ExtractAll(net, pageUrl, fp, items)
    ensures f.name != "" || f.link != ""
    ensures IsTrimmed(f.name) && f.feedSuffix == ""
  {
    var it :| it in items && ExtractOne(net, pageUrl, fp, it) == Some(f);
  }

  /** Extraction distributes over concatenation of the item list. */
  lemma ExtractAllAppend(net: Net, pageUrl: string, fp: FriendsPage, a: seq<Node>, b: seq<Node>)
    ensures ExtractAll(net, pageUrl, fp, a + b) == ExtractAll(net, pageUrl, fp, a) + ExtractAll(net, pageUrl, fp, b)
  {
    FilterMapAppend(a, b, (it: Node) => ExtractOne(net, pageUrl, fp, it));
  }

  /** `ParseFriendsPage`: no friends-page rule yields no friends and no
      error; otherwise fetch, parse and extract every item matching the
      item selector. */
  function ParseFriendsPage(net: Net, pageUrl: string, preset: Preset): (r: Result<seq<StaticFriend>>)
    ensures preset.friendsPage.None? ==> r == Success([])
    ensures preset.friendsPage.Some? && net.fetch(pageUrl).Failure? ==> r.Failure?
    ensures r.Failure? ==> r.error != ""
    ensures (preset.friendsPage.Some? && net.fetch(pageUrl).Success?
             && net.parseHtml(net.fetch(pageUrl).value.body).Success?) ==> r.Success?
    ensures r.Success? && preset.friendsPage.Some? ==>
      net.fetch(pageUrl).Success? && net.parseHtml(net.fetch(pageUrl).value.body).Success?
    ensures r.Success? && preset.friendsPage.Some? ==>
      var doc := net.parseHtml(net.fetch(pageUrl).value.body).value;
      var fp := preset.friendsPage.value;
      r.value == ExtractAll(net, pageUrl, fp, Find(doc, fp.item, net.matches))
  {
    match preset.friendsPage
    case None => Success([])
    case Some(fp) =>
      match net.fetch(pageUrl)
      case Failure(e) => Failure("GET friends page " + pageUrl + ": " + e)
      case Success(resp) =>
        match net.parseHtml(resp.body)
        case Failure(e) => Failure("parse friends page html: " + e)
        case Success(doc) => Success(ExtractAll(net, pageUrl, fp, Find(doc, fp.item, net.matches)))
  }
}

=== FILE: roster.dfy ===
/** The link-keyed roster algebra of internal/aggregate/runner.go (`dedup`,
    `mergeDedup`) and its small helpers (`max`, `hostOf`). Go builds each
    result by ranging over a map, so the output order is whatever
    `Enumerate` picks and every contract holds for all orders. */
module Roster {
  import opened Wrappers
  import opened Text
  import opened Urls
  import opened Config
  import opened Sorting

  /** Some friend of `fs` has link `l`. */
  predicate HasLink(fs: seq<StaticFriend>, l: string) {
    exists i :: 0 <= i < |fs| && fs[i].link == l
  }

  /** `fs[i]` is the first friend of `fs` carrying its link. */
  predicate FirstOfLink(fs: seq<StaticFriend>, i: int) {
    0 <= i < |fs| && forall j :: 0 <= j < i ==> fs[j].link != fs[i].link
  }

  /** `x` is the first friend of `fs` carrying its link. */
  predicate IsFirstOfLink(fs: seq<StaticFriend>, x: StaticFriend) {
    exists j :: 0 <= j < |fs| && FirstOfLink(fs, j) && fs[j] == x
  }

  /** Every entry sits under its own link. */
  predicate Keyed(m: map<string, StaticFriend>) {
    forall l :: l in m ==> m[l].link == l
  }

  /** No two entries share a link. */
  predicate DistinctLinks(fs: seq<StaticFriend>) {
    forall i, j :: 0 <= i < j < |fs| ==> fs[i].link != fs[j].link
  }

  /** Splitting off the head of a non-empty list. */
  lemma HasLinkCons(fs: seq<StaticFriend>)
    requires fs != []
    ensures forall l :: HasLink(fs, l) <==> fs[0].link == l || HasLink(fs[1..], l)
  {
    forall l | HasLink(fs, l) ensures fs[0].link == l || HasLink(fs[1..], l) {
      var i :| 0 <= i < |fs| && fs[i].link == l;
      if i > 0 { assert fs[1..][i - 1] == fs[i]; }
    }
    forall l | HasLink(fs[1..], l) ensures HasLink(fs, l) {
      var i :| 0 <= i < |fs[1..]| && fs[1..][i].link == l;
      assert fs[i + 1] == fs[1..][i];
    }
  }

  /** The insert-if-absent loop shared by `dedup` and `mergeDedup`: skip an
      empty link, skip a link already present, otherwise insert. Entries
      already in `m` are never overwritten. */
  function AddNew(m: map<string, StaticFriend>, add: seq<StaticFriend>): (r: map<string, StaticFriend>)
    decreases |add|
    ensures forall l :: l in m ==> l in r && r[l] == m[l]
  {
    if add == [] then m
    else if add[0].link == "" || add[0].link in m then AddNew(m, add[1..])
    else AddNew(m[add[0].link := add[0]], add[1..])
  }

  /** The keys after `AddNew`: the old ones plus every non-empty link added. */
  lemma {:induction false} AddNewKeys(m: map<string, StaticFriend>, add: seq<StaticFriend>)
    decreases |add|
    ensures forall l :: l in AddNew(m, add) <==> l in m || (l != "" && HasLink(add, l))
  {
    if add != [] {
      HasLinkCons(add);
      if add[0].link == "" || add[0].link in m {
        AddNewKeys(m, add[1..]);
      } else {
        AddNewKeys(m[add[0].link := add[0]], add[1..]);
      }
    }
  }

  /** `AddNew` keeps every entry under its own link. */
  lemma {:induction false} AddNewKeyed(m: map<string, StaticFriend>, add: seq<StaticFriend>)
    requires Keyed(m)
    decreases |add|
    ensures Keyed(AddNew(m, add))
  {
    if add != [] {
      if add[0].link == "" || add[0].link in m {
        AddNewKeyed(m, add[1..]);
      } else {
        AddNewKeyed(m[add[0].link := add[0]], add[1..]);
      }
    }
  }

  /** A key `AddNew` introduces holds the first friend of `add` with that
      link: first write wins. */
  lemma {:induction false} AddNewFirst(m: map<string, StaticFriend>, add: seq<StaticFriend>, l: string)
    requires l in AddNew(m, add) && l !in m
    decreases |add|
    ensures exists i :: FirstOfLink(add, i) && add[i].link == l && add[i] == AddNew(m, add)[l]
  {
    var r := AddNew(m, add);
    AddNewKeys(m, add);
    if add == [] {
    } else if l == add[0].link {
      assert FirstOfLink(add, 0);
    } else {
      var m' := if add[0].link == "" || add[0].link in m then m else m[add[0].link := add[0]];
      assert r == AddNew(m', add[1..]);
      AddNewFirst(m', add[1..], l);
      var i :| FirstOfLink(add[1..], i) && add[1..][i].link == l && add[1..][i] == r[l];
      assert add[i + 1] == add[1..][i];
      forall j | 0 < j <= i ensures add[j].link != l {
        assert add[j] == add[1..][j - 1];
      }
      assert FirstOfLink(add, i + 1);
    }
  }

  /** `mergeDedup`'s first loop: `m[f.Link] = f` over `base`, last write
      wins, empty links included. */
  function BaseMap(base: seq<StaticFriend>): (r: map<string, StaticFriend>)
    decreases |base|
    ensures forall l :: l in r <==> HasLink(base, l)
    ensures Keyed(r)
    ensures forall l :: l in r ==> r[l] in base
  {
    if base == [] then map[]
    else
      var n := |base| - 1;
      var r := BaseMap(base[..n])[base[n].link := base[n]];
      assert forall l :: HasLink(base, l) <==> base[n].link == l || HasLink(base[..n], l) by {
        forall l | HasLink(base, l) ensures base[n].link == l || HasLink(base[..n], l) {
          var i :| 0 <= i < |base| && base[i].link == l;
          if i < n { assert base[..n][i] == base[i]; }
        }
        forall l | HasLink(base[..n], l) ensures HasLink(base, l) {
          var i :| 0 <= i < n && base[..n][i].link == l;
          assert base[i] == base[..n][i];
        }
      }
      assert forall x :: x in base[..n] ==> x in base;
      r
  }

  /** A friend whose link is unique in `base` is stored unchanged. */
  lemma BaseMapKeepsUnique(base: seq<StaticFriend>, i: int)
    requires DistinctLinks(base) && 0 <= i < |base|
    ensures base[i].link in BaseMap(base) && BaseMap(base)[base[i].link] == base[i]
  {
    var m := BaseMap(base);
    assert HasLink(base, base[i].link);
    var x := m[base[i].link];
    var j :| 0 <= j < |base| && base[j] == x;
  }

  /** The values of a keyed map, one per link, in map-iteration order. */
  method Values(m: map<string, StaticFriend>) returns (out: seq<StaticFriend>)
    requires Keyed(m)
    ensures DistinctLinks(out)
    ensures forall l :: l in m <==> HasLink(out, l)
    ensures forall i :: 0 <= i < |out| ==> out[i].link in m && out[i] == m[out[i].link]
  {
    var ks;
    ks, out := Enumerate(m);
    assert forall i :: 0 <= i < |out| ==> out[i].link == ks[i];
    forall l | l in m ensures HasLink(out, l) {
      var i :| 0 <= i < |ks| && ks[i] == l;
    }
  }

  /** `dedup`: the non-empty links of `fs`, each with its first friend. */
  method Dedup(fs: seq<StaticFriend>) returns (out: seq<StaticFriend>)
    ensures DistinctLinks(out)
    ensures forall l :: HasLink(out, l) <==> l != "" && HasLink(fs, l)
    ensures forall i :: 0 <= i < |out| ==> IsFirstOfLink(fs, out[i])
    ensures forall j :: FirstOfLink(fs, j) && fs[j].link != "" ==> fs[j] in out
  {
    var m := AddNew(map[], fs);
    AddNewKeys(map[], fs);
    AddNewKeyed(map[], fs);
    out := Values(m);
    forall i | 0 <= i < |out| ensures IsFirstOfLink(fs, out[i]) {
      AddNewFirst(map[], fs, out[i].link);
    }
    forall i | FirstOfLink(fs, i) && fs[i].link != "" ensures fs[i] in out {
      assert HasLink(fs, fs[i].link);
      var k :| 0 <= k < |out| && out[k].link == fs[i].link;
      assert IsFirstOfLink(fs, out[k]);
      var j :| 0 <= j < |fs| && FirstOfLink(fs, j) && fs[j] == out[k];
      assert fs[j].link == fs[i].link;
      assert j == i;
    }
  }

  /** `mergeDedup`: the links of `base` plus the new non-empty links of
      `add`. A base friend with a unique link is kept unchanged; a friend
      taken from `add` is the first one with its link, and only when `base`
      lacks that link. */
  method MergeDedup(base: seq<StaticFriend>, add: seq<StaticFriend>) returns (out: seq<StaticFriend>)
    ensures DistinctLinks(out)
    ensures forall l :: HasLink(out, l) <==> HasLink(base, l) || (l != "" && HasLink(add, l))
    ensures DistinctLinks(base) ==> forall i :: 0 <= i < |base| ==> base[i] in out
    ensures forall i :: 0 <= i < |out| ==>
      out[i] in base || (!HasLink(base, out[i].link) && IsFirstOfLink(add, out[i]))
  {
    var b := BaseMap(base);
    var m := AddNew(b, add);
    AddNewKeys(b, add);
    AddNewKeyed(b, add);
    out := Values(m);
    forall i | 0 <= i < |out|
      ensures out[i] in base || (!HasLink(base, out[i].link) && IsFirstOfLink(add, out[i]))
    {
      if out[i].link !in b {
        AddNewFirst(b, add, out[i].link);
      }
    }
    if DistinctLinks(base) {
      forall i | 0 <= i < |base| ensures base[i] in out {
        BaseMapKeepsUnique(base, i);
        var k :| 0 <= k < |out| && out[k].link == base[i].link;
      }
    }
  }

  /** `max`. */
  function Max(a: int, b: int): (r: int)
    ensures r >= a && r >= b
    ensures r == a || r == b
  {
    if a > b then a else b
  }

  /** The worker bound `max(1, Concurrency.Fetch)` admits at least one
      fetch in flight. */
  function Workers(c: Config): (n: int)
    ensures n >= 1
    ensures c.concurrency.fetch >= 1 ==> n == c.concurrency.fetch
  {
    Max(1, c.concurrency.fetch)
  }

  /** `hostOf`: the parsed host when there is one; otherwise the text after
      the first "://" cut at the first of "/", "?" or "#". */
  function HostOf(lib: UrlLib, raw: string): (r: string)
    ensures raw == "" ==> r == ""
    ensures raw != "" && lib.parse(raw).Some? && lib.parse(raw).value.host != "" ==> r == lib.parse(raw).value.host
    ensures raw != "" && (lib.parse(raw).None? || lib.parse(raw).value.host == "") ==>
      IndexAny(r, {'/', '?', '#'}) == -1 && |r| <= |raw|
  {
    if raw == "" then ""
    else if lib.parse(raw).Some? && lib.parse(raw).value.host != "" then lib.parse(raw).value.host
    else
      var i := IndexOf(raw, "://");
      var s := if i >= 0 then raw[i + 3..] else raw;
      var j := IndexAny(s, {'/', '?', '#'});
      if j >= 0 then
        assert IndexAny(s[..j], {'/', '?', '#'}) == -1 by {
          assert forall k :: 0 <= k < j ==> s[..j][k] == s[k];
        }
        s[..j]
      else s
  }

  /** For an unparsable `scheme://host/rest` with a colon-free scheme and a
      host free of "/?#", the fallback recovers the host. */
  lemma HostOfFallback(lib: UrlLib, scheme: string, host: string, rest: string)
    requires lib.parse(scheme + "://" + host + "/" + rest).None?
    requires Free(scheme, ':')
    requires IndexAny(host, {'/', '?', '#'}) == -1
    ensures HostOf(lib, scheme + "://" + host + "/" + rest) == host
  {
    var raw := scheme + "://" + host + "/" + rest;
    var s := host + "/" + rest;
    assert raw == scheme + "://" + s;
    SchemeSeparator(scheme, s);
    assert raw[|scheme| + 3..] == s;
    HostEnd(host, rest);
    assert s[..|host|] == host;
  }

  /** The first "://" of `scheme://tail` ends a colon-free scheme. */
  lemma SchemeSeparator(scheme: string, tail: string)
    requires Free(scheme, ':')
    ensures IndexOf(scheme + "://" + tail, "://") == |scheme|
  {
    var raw := scheme + "://" + tail;
    assert OccursAt(raw, "://", |scheme|) by {
      assert raw[|scheme|..|scheme| + 3] == "://";
    }
    forall k | 0 <= k < |scheme| ensures !OccursAt(raw, "://", k) {
      assert raw[k..k + 3][0] == raw[k] == scheme[k];
    }
  }

  /** A host free of "/?#" ends at the "/" that follows it. */
  lemma HostEnd(host: string, rest: string)
    requires IndexAny(host, {'/', '?', '#'}) == -1
    ensures IndexAny(host + "/" + rest, {'/', '?', '#'}) == |host|
  {
    var s := host + "/" + rest;
    assert s[|host|] == '/';
    forall k | 0 <= k < |host| ensures s[k] !in {'/', '?', '#'} {
      assert s[k] == host[k];
    }
  }
}

=== FILE: rules.dfy ===
/** Theme presets of internal/rules/rules.go and the preset lookup with its
    default and case-insensitive fallbacks. */
module Rules {
  import opened Wrappers
  import opened Text

  /** The selector-DSL expressions for one friends-page layout. */
  datatype FriendsPage = FriendsPage(item: string, name: string, link: string, avatar: string)

  /** A theme preset; `friendsPage` is None when the YAML has no rule. */
  datatype Preset = Preset(friendsPage: Option<FriendsPage>)

  /** The zero `Preset{}`. */
  const NoPreset := Preset(None)

  /** The name looked up for `name`: the empty name means "default". */
  function Wanted(name: string): (r: string)
    ensures r != ""
    ensures name != "" ==> r == name
  {
    if name == "" then "default" else name
  }

  /** `Rules.GetPreset`. `presets` is None for a nil `*Rules`. Go ranges over
      the map in an unspecified order, so the case-insensitive match and the
      last-resort pick are any qualifying key. */
  method GetPreset(presets: Option<map<string, Preset>>, name: string) returns (p: Preset, ok: bool)
    ensures presets.None? || |presets.value| == 0 ==> p == NoPreset && !ok
    ensures presets.Some? && |presets.value| > 0 ==> ok && p in presets.value.Values
    ensures presets.Some? && Wanted(name) in presets.value ==> p == presets.value[Wanted(name)]
    ensures presets.Some? && Wanted(name) !in presets.value && HasFoldedKey(presets.value, Wanted(name)) ==>
      exists k :: k in presets.value && Lower(k) == Lower(Wanted(name)) && p == presets.value[k]
    ensures (presets.Some? && Wanted(name) !in presets.value && !HasFoldedKey(presets.value, Wanted(name))
             && "default" in presets.value) ==> p == presets.value["default"]
  {
    if presets.None? || |presets.value| == 0 {
      return NoPreset, false;
    }
    var m := presets.value;
    var want := Wanted(name);
    if want in m {
      return m[want], true;
    }
    if HasFoldedKey(m, want) {
      var k :| k in m && Lower(k) == Lower(want);
      return m[k], true;
    }
    if "default" in m {
      return m["default"], true;
    }
    assert m.Keys != {};
    var k :| k in m;
    return m[k], true;
  }

  /** Some key equals `name` up to case. */
  predicate HasFoldedKey(m: map<string, Preset>, name: string) {
    exists k :: k in m && Lower(k) == Lower(name)
  }
}

=== FILE: runner.dfy ===
/** One aggregation round of internal/aggregate/runner.go: build the roster,
    then for each friend discover its feed, record the friend and write the
    feed's posts, and finally clean old posts in store mode. The goroutines
    of `Run` are modelled as a sequential loop in roster order, and one
    `now` stands for every `time.Now()` of the round. */
module Aggregate {
  import opened Wrappers
  import opened Model
  import opened Oracles
  import opened Config
  import opened Rules
  import opened Feeds
  import opened Friends
  import opened Roster
  import opened SimpleBuf
  import opened Store
  import opened Sorting
  import Text

  /** Where a round writes: the in-memory buffer of simple mode or the
      database. */
  datatype Sink = Memory(buf: Buffer) | Persistent(db: Db)

  function FriendsOf(s: Sink): map<string, Friend> {
    match s
    case Memory(b) => b.friends
    case Persistent(db) => db.friends
  }

  function PostsOf(s: Sink): map<string, Post> {
    match s
    case Memory(b) => b.posts
    case Persistent(db) => db.posts
  }

  predicate SinkValid(s: Sink) {
    match s
    case Memory(b) => SimpleBuf.Valid(b)
    case Persistent(db) => Store.Valid(db)
  }

  /** `New`: a fresh buffer exactly when simple mode is on, else the store. */
  function NewSink(cfg: Config, db: Db): (s: Sink)
    ensures s.Memory? <==> cfg.simpleMode
    ensures s.Memory? ==> s.buf == EmptyBuffer && SinkValid(s)
    ensures s.Persistent? ==> s.db == db
  {
    if cfg.simpleMode then Memory(EmptyBuffer) else Persistent(db)
  }

  /** `buf.AddFriend` or `store.UpsertFriend`. The buffer ignores an empty
      link; the store keeps a conflicting row's `created_at`. */
  function PutFriend(s: Sink, f: Friend, now: int): (r: Sink)
    ensures r.Memory? == s.Memory?
    ensures PostsOf(r) == PostsOf(s)
    ensures FriendsOf(r).Keys == FriendsOf(s).Keys + (if f.link == "" && s.Memory? then {} else {f.link})
    ensures forall k :: k in FriendsOf(s) && k != f.link ==> FriendsOf(r)[k] == FriendsOf(s)[k]
    ensures f.link != "" || s.Persistent? ==> FriendsOf(r)[f.link].(createdAt := f.createdAt) == f
    ensures SinkValid(s) ==> SinkValid(r)
  {
    match s
    case Memory(b) => Memory(AddFriend(b, f))
    case Persistent(db) => Persistent(UpsertFriend(db, f, now))
  }

  /** `buf.AddPost` or `store.UpsertPost`; a refused upsert is logged and
      leaves the store as it was. */
  function PutPost(s: Sink, p: Post, now: int): (r: Sink)
    ensures r.Memory? == s.Memory?
    ensures FriendsOf(r) == FriendsOf(s)
    ensures p.link == "" ==> r == s
    ensures PostsOf(r).Keys == PostsOf(s).Keys + (if p.link == "" then {} else {p.link})
    ensures forall k :: k in PostsOf(s) && k != p.link ==> PostsOf(r)[k] == PostsOf(s)[k]
    ensures p.link != "" ==> PostsOf(r)[p.link].(createdAt := p.createdAt) == p
    ensures SinkValid(s) ==> SinkValid(r)
  {
    match s
    case Memory(b) => Memory(AddPost(b, p))
    case Persistent(db) =>
      match UpsertPost(db, p, now)
      case Failure(_) => s
      case Success(db') => Persistent(db')
  }

  /** `p` is one of `ps`, up to the `created_at` the sink assigns. */
  predicate Written(ps: seq<Post>, p: Post) {
    exists i :: 0 <= i < |ps| && ps[i] == p.(createdAt := ps[i].createdAt)
  }

  /** The loop writing a friend's posts, in order. */
  function PutPosts(s: Sink, ps: seq<Post>, now: int): (r: Sink)
    decreases |ps|
    ensures r.Memory? == s.Memory?
    ensures FriendsOf(r) == FriendsOf(s)
    ensures SinkValid(s) ==> SinkValid(r)
  {
    if ps == [] then s else PutPost(PutPosts(s, ps[..|ps| - 1], now), ps[|ps| - 1], now)
  }

  /** After the loop the post keys are the old ones plus every non-empty
      link written. */
  lemma {:induction false} PutPostsKeys(s: Sink, ps: seq<Post>, now: int)
    decreases |ps|
    ensures forall k :: k in PostsOf(PutPosts(s, ps, now)) <==> k in PostsOf(s) || (k != "" && HasPostLink(ps, k))
  {
    if ps != [] {
      var n := |ps| - 1;
      PutPostsKeys(s, ps[..n], now);
      HasPostLinkSnoc(ps);
      assert PutPosts(s, ps, now) == PutPost(PutPosts(s, ps[..n], now), ps[n], now);
    }
  }

  /** Every post the loop leaves differing from before is one of `ps`. */
  lemma {:induction false} PutPostsWritten(s: Sink, ps: seq<Post>, now: int)
    decreases |ps|
    ensures var r := PutPosts(s, ps, now);
      forall k :: k in PostsOf(r) ==> (k in PostsOf(s) && PostsOf(r)[k] == PostsOf(s)[k]) || Written(ps, PostsOf(r)[k])
  {
    if ps != [] {
      var n := |ps| - 1;
      var mid := PutPosts(s, ps[..n], now);
      var r := PutPosts(s, ps, now);
      PutPostsWritten(s, ps[..n], now);
      forall k | k in PostsOf(r)
        ensures (k in PostsOf(s) && PostsOf(r)[k] == PostsOf(s)[k]) || Written(ps, PostsOf(r)[k])
      {
        assert r == PutPost(mid, ps[n], now);
        if k == ps[n].link && k != "" {
          assert ps[n] == PostsOf(r)[k].(createdAt := ps[n].createdAt);
        } else if !(k in PostsOf(s) && PostsOf(mid)[k] == PostsOf(s)[k]) {
          var i :| 0 <= i < n && ps[..n][i] == PostsOf(mid)[k].(createdAt := ps[..n][i].createdAt);
          assert ps[i] == ps[..n][i];
        }
      }
    }
  }

  /** The post built from a feed item: its fields copied, the friend's
      avatar, origin "feed". */
  function ToPost(it: Item, avatar: string, now: int): (p: Post)
    ensures p.title == it.title && p.link == it.link && p.author == it.author
    ensures p.created == it.created && p.updated == it.updated
    ensures p.avatar == avatar && p.rule == "feed" && p.createdAt == now
  {
    Post(it.title, it.created, it.updated, it.link, it.author, avatar, "feed", now)
  }

  function ToPosts(items: seq<Item>, avatar: string, now: int): (ps: seq<Post>)
    ensures |ps| == |items|
    ensures forall i :: 0 <= i < |ps| ==> ps[i] == ToPost(items[i], avatar, now)
  {
    seq(|items|, i requires 0 <= i < |items| => ToPost(items[i], avatar, now))
  }

  /** `p` is the post of one of `items`, whatever its `created_at`. */
  predicate FromItem(items: seq<Item>, avatar: string, p: Post) {
    exists i :: 0 <= i < |items| && ToPost(items[i], avatar, p.createdAt) == p
  }

  /** The friend record `processFriend` writes. */
  function FriendRecord(sf: StaticFriend, d: Result<string>, now: int): (f: Friend)
    ensures f.name == sf.name && f.link == sf.link && f.avatar == sf.avatar && f.createdAt == now
    ensures d.Success? ==> f.error == ""
    ensures d.Failure? ==> f.error == d.error
  {
    Friend(sf.name, sf.link, sf.avatar, if d.Success? then "" else d.error, now)
  }

  /** `processFriend`. Discovery failing records the friend with the error
      text and writes no post; success records it with an empty error, and
      a feed that then parses adds one post per item. Other friends are
      never touched. */
  function ProcessFriend(s: Sink, net: Net, maxPosts: int, sf: StaticFriend, now: int): (r: Sink)
    ensures r.Memory? == s.Memory?
    ensures FriendsOf(r).Keys == FriendsOf(s).Keys + (if sf.link == "" && s.Memory? then {} else {sf.link})
    ensures forall k :: k in FriendsOf(s) && k != sf.link ==> FriendsOf(r)[k] == FriendsOf(s)[k]
    ensures sf.link != "" || s.Persistent? ==>
      FriendsOf(r)[sf.link].(createdAt := now) == FriendRecord(sf, Discover(net, sf.link, sf.feedSuffix), now)
    ensures Discover(net, sf.link, sf.feedSuffix).Failure? ==> PostsOf(r) == PostsOf(s)
    ensures SinkValid(s) ==> SinkValid(r)
  {
    var d := Discover(net, sf.link, sf.feedSuffix);
    var s1 := PutFriend(s, FriendRecord(sf, d, now), now);
    if d.Failure? then s1
    else
      match ParseFeed(net, d.value, maxPosts)
      case Failure(_) => s1
      case Success(items) => PutPosts(s1, ToPosts(items, sf.avatar, now), now)
  }

  /** The recorded friend's error is empty exactly when discovery succeeds. */
  lemma ProcessFriendStatus(s: Sink, net: Net, maxPosts: int, sf: StaticFriend, now: int)
    requires sf.link != "" || s.Persistent?
    ensures var r := ProcessFriend(s, net, maxPosts, sf, now);
      FriendsOf(r)[sf.link].error == "" <==> Discover(net, sf.link, sf.feedSuffix).Success?
  {
    var r := ProcessFriend(s, net, maxPosts, sf, now);
    assert FriendsOf(r)[sf.link].error == FriendRecord(sf, Discover(net, sf.link, sf.feedSuffix), now).error;
  }

  /** Writing a feed's items keeps every old key, lands every item that has
      a link, and any post it changes is the post of one of the items. */
  lemma PutItems(s: Sink, items: seq<Item>, avatar: string, now: int)
    ensures var r := PutPosts(s, ToPosts(items, avatar, now), now);
      && PostsOf(s).Keys <= PostsOf(r).Keys
      && (forall i :: 0 <= i < |items| && items[i].link != "" ==> items[i].link in PostsOf(r))
      && (forall k :: k in PostsOf(r) ==> (k in PostsOf(s) && PostsOf(r)[k] == PostsOf(s)[k]) || FromItem(items, avatar, PostsOf(r)[k]))
  {
    var ps := ToPosts(items, avatar, now);
    var r := PutPosts(s, ps, now);
    PutPostsKeys(s, ps, now);
    PutPostsWritten(s, ps, now);
    forall i | 0 <= i < |items| && items[i].link != "" ensures items[i].link in PostsOf(r) {
      assert ps[i].link == items[i].link;
    }
    forall k | k in PostsOf(r) && !(k in PostsOf(s) && PostsOf(r)[k] == PostsOf(s)[k])
      ensures FromItem(items, avatar, PostsOf(r)[k])
    {
      var i :| 0 <= i < |ps| && ps[i] == PostsOf(r)[k].(createdAt := ps[i].createdAt);
      assert ToPost(items[i], avatar, PostsOf(r)[k].createdAt) == PostsOf(r)[k];
    }
  }

  /** A post built from an item carries rule "feed" and the friend's avatar. */
  lemma FromItemFields(items: seq<Item>, avatar: string, p: Post)
    requires FromItem(items, avatar, p)
    ensures p.rule == "feed" && p.avatar == avatar
  {
    var i :| 0 <= i < |items| && ToPost(items[i], avatar, p.createdAt) == p;
  }

  /** Posts are only ever added or overwritten, each new one is built from
      a parsed item with rule "feed" and the friend's avatar, and every item
      with a link lands in the sink. */
  lemma ProcessFriendPosts(s: Sink, net: Net, maxPosts: int, sf: StaticFriend, now: int)
    ensures var r := ProcessFriend(s, net, maxPosts, sf, now);
      PostsOf(s).Keys <= PostsOf(r).Keys
    ensures var r := ProcessFriend(s, net, maxPosts, sf, now);
      forall k :: k in PostsOf(r) ==>
        (k in PostsOf(s) && PostsOf(r)[k] == PostsOf(s)[k]) || (PostsOf(r)[k].rule == "feed" && PostsOf(r)[k].avatar == sf.avatar)
    ensures var r := ProcessFriend(s, net, maxPosts, sf, now);
      var d := Discover(net, sf.link, sf.feedSuffix);
      d.Success? && ParseFeed(net, d.value, maxPosts).Success? ==>
        var items := ParseFeed(net, d.value, maxPosts).value;
        && (forall i :: 0 <= i < |items| && items[i].link != "" ==> items[i].link in PostsOf(r))
        && (forall k :: k in PostsOf(r) ==> (k in PostsOf(s) && PostsOf(r)[k] == PostsOf(s)[k]) || FromItem(items, sf.avatar, PostsOf(r)[k]))
  {
    var r := ProcessFriend(s, net, maxPosts, sf, now);
    var d := Discover(net, sf.link, sf.feedSuffix);
    var s1 := PutFriend(s, FriendRecord(sf, d, now), now);
    assert PostsOf(s1) == PostsOf(s);
    if d.Success? && ParseFeed(net, d.value, maxPosts).Success? {
      var items := ParseFeed(net, d.value, maxPosts).value;
      assert r == PutPosts(s1, ToPosts(items, sf.avatar, now), now);
      PutItems(s1, items, sf.avatar, now);
      forall k | k in PostsOf(r) && !(k in PostsOf(s) && PostsOf(r)[k] == PostsOf(s)[k])
        ensures PostsOf(r)[k].rule == "feed" && PostsOf(r)[k].avatar == sf.avatar
      {
        FromItemFields(items, sf.avatar, PostsOf(r)[k]);
      }
    } else {
      assert r == s1;
    }
  }

  /** The preset `Run` uses for a page: the matching one when rules are
      loaded and `GetPreset` reports success, else no preset. */
  method PresetFor(presets: Option<map<string, Preset>>, theme: string) returns (p: Preset)
    ensures presets.None? ==> p == NoPreset
    ensures presets.Some? && |presets.value| == 0 ==> p == NoPreset
    ensures presets.Some? && |presets.value| > 0 ==> p in presets.value.Values
    ensures presets.Some? && Wanted(theme) in presets.value ==> p == presets.value[Wanted(theme)]
    ensures presets.Some? && Wanted(theme) !in presets.value && HasFoldedKey(presets.value, Wanted(theme)) ==>
      exists k :: k in presets.value && Text.Lower(k) == Text.Lower(Wanted(theme)) && p == presets.value[k]
    ensures (presets.Some? && Wanted(theme) !in presets.value && !HasFoldedKey(presets.value, Wanted(theme))
             && "default" in presets.value) ==> p == presets.value["default"]
  {
    p := NoPreset;
    if presets.Some? {
      var q, ok := GetPreset(presets, theme);
      if ok {
        p := q;
      }
    }
  }

  /** `p` is a preset `PresetFor` may return for `theme`: all its
      guarantees, which leave open only which case-insensitive key wins
      when several fold to the theme. */
  predicate PresetChoice(presets: Option<map<string, Preset>>, theme: string, p: Preset) {
    && (presets.None? ==> p == NoPreset)
    && (presets.Some? && |presets.value| == 0 ==> p == NoPreset)
    && (presets.Some? && |presets.value| > 0 ==> p in presets.value.Values)
    && (presets.Some? && Wanted(theme) in presets.value ==> p == presets.value[Wanted(theme)])
    && (presets.Some? && Wanted(theme) !in presets.value && HasFoldedKey(presets.value, Wanted(theme)) ==>
          exists k :: k in presets.value && Text.Lower(k) == Text.Lower(Wanted(theme)) && p == presets.value[k])
    && ((presets.Some? && Wanted(theme) !in presets.value && !HasFoldedKey(presets.value, Wanted(theme))
         && "default" in presets.value) ==> p == presets.value["default"])
  }

  /** What `Run` did with one link source: skipped it (not a "page"), or
      read it with `preset`, getting `found`. */
  datatype SourceRead = Skipped | Read(preset: Preset, found: Result<seq<StaticFriend>>)

  /** A read page that succeeded and lists a friend with link `l`. */
  predicate Supplies(x: SourceRead, l: string) {
    x.Read? && x.found.Success? && HasLink(x.found.value, l)
  }

  /** Some read page supplies `l`. */
  predicate SuppliedBy(trace: seq<SourceRead>, l: string) {
    exists k :: 0 <= k < |trace| && Supplies(trace[k], l)
  }

  /** Reading one more source adds exactly what it supplies. */
  lemma SuppliedByStep(trace: seq<SourceRead>, x: SourceRead)
    ensures forall l :: SuppliedBy(trace + [x], l) <==> SuppliedBy(trace, l) || Supplies(x, l)
  {
    var u := trace + [x];
    forall l ensures SuppliedBy(u, l) <==> SuppliedBy(trace, l) || Supplies(x, l) {
      if SuppliedBy(u, l) {
        var k :| 0 <= k < |u| && Supplies(u[k], l);
        if k < |trace| { assert u[k] == trace[k]; }
      }
      if SuppliedBy(trace, l) {
        var k :| 0 <= k < |trace| && Supplies(trace[k], l);
        assert u[k] == trace[k];
      }
      if Supplies(x, l) {
        assert u[|trace|] == x;
      }
    }
  }

  /** `x` is how `Run` handles `src`: a non-"page" source is skipped, a
      page is read with a preset `PresetFor` may pick. */
  predicate ReadAs(presets: Option<map<string, Preset>>, net: Net, src: LinkSource, x: SourceRead) {
    && (x.Skipped? <==> src.kind != "page")
    && (x.Read? ==> PresetChoice(presets, src.theme, x.preset)
                    && x.found == ParseFriendsPage(net, src.url, x.preset))
  }

  /** `trace` records, source by source, how `Run` handles `srcs`. */
  predicate Faithful(presets: Option<map<string, Preset>>, net: Net, srcs: seq<LinkSource>, trace: seq<SourceRead>) {
    |trace| == |srcs| && forall k :: 0 <= k < |trace| ==> ReadAs(presets, net, srcs[k], trace[k])
  }

  /** A faithful trace of a prefix extends by one handled source. */
  lemma FaithfulStep(presets: Option<map<string, Preset>>, net: Net, srcs: seq<LinkSource>, trace: seq<SourceRead>, x: SourceRead, i: nat)
    requires i < |srcs|
    requires Faithful(presets, net, srcs[..i], trace)
    requires ReadAs(presets, net, srcs[i], x)
    ensures Faithful(presets, net, srcs[..i + 1], trace + [x])
  {
    var u := trace + [x];
    forall k | 0 <= k < |u| ensures ReadAs(presets, net, srcs[..i + 1][k], u[k]) {
      if k < i {
        assert u[k] == trace[k] && srcs[..i + 1][k] == srcs[..i][k];
      } else {
        assert u[k] == x && srcs[..i + 1][k] == srcs[i];
      }
    }
  }

  /** Handles one link source: reads it when it is a "page" and merges
      the friends of a successful read into `roster`. */
  method ReadSource(presets: Option<map<string, Preset>>, net: Net, src: LinkSource, statics: seq<StaticFriend>, roster: seq<StaticFriend>)
    returns (next: seq<StaticFriend>, x: SourceRead)
    requires DistinctLinks(roster)
    requires !HasLink(roster, "")
    requires forall j :: FirstOfLink(statics, j) && statics[j].link != "" ==> statics[j] in roster
    ensures ReadAs(presets, net, src, x)
    ensures DistinctLinks(next)
    ensures !HasLink(next, "")
    ensures forall l :: HasLink(next, l) <==> HasLink(roster, l) || (l != "" && Supplies(x, l))
    ensures forall j :: FirstOfLink(statics, j) && statics[j].link != "" ==> statics[j] in next
  {
    next := roster;
    x := Skipped;
    if src.kind == "page" {
      var preset := PresetFor(presets, src.theme);
      var found := ParseFriendsPage(net, src.url, preset);
      x := Read(preset, found);
      if found.Success? {
        next := MergeDedup(roster, found.value);
        forall j | FirstOfLink(statics, j) && statics[j].link != "" ensures statics[j] in next {
          var k :| 0 <= k < |roster| && roster[k] == statics[j];
        }
      }
    }
  }

  /** `Run`'s roster: the deduplicated static friends, merged with the
      friends of every "page" source whose extraction succeeds. `trace`
      records how each source was handled. The roster's links are exactly
      the non-empty static links and the non-empty links a successfully
      read page supplied; other sources and failed pages contribute
      nothing. */
  method CollectRoster(cfg: Config, presets: Option<map<string, Preset>>, net: Net)
    returns (roster: seq<StaticFriend>, trace: seq<SourceRead>)
    ensures Faithful(presets, net, cfg.linkSources, trace)
    ensures DistinctLinks(roster)
    ensures !HasLink(roster, "")
    ensures forall l :: HasLink(roster, l) <==> l != "" && (HasLink(cfg.staticFriends, l) || SuppliedBy(trace, l))
    ensures forall j :: FirstOfLink(cfg.staticFriends, j) && cfg.staticFriends[j].link != "" ==> cfg.staticFriends[j] in roster
    ensures (forall i :: 0 <= i < |cfg.linkSources| ==> cfg.linkSources[i].kind != "page") ==>
      forall l :: HasLink(roster, l) <==> l != "" && HasLink(cfg.staticFriends, l)
  {
    var statics := cfg.staticFriends;
    var srcs := cfg.linkSources;
    roster := Dedup(statics);
    trace := [];
    var i := 0;
    while i < |srcs|
      invariant 0 <= i <= |srcs|
      invariant Faithful(presets, net, srcs[..i], trace)
      invariant DistinctLinks(roster)
      invariant !HasLink(roster, "")
      invariant forall l :: HasLink(roster, l) <==> l != "" && (HasLink(statics, l) || SuppliedBy(trace, l))
      invariant forall j :: FirstOfLink(statics, j) && statics[j].link != "" ==> statics[j] in roster
    {
      var x;
      roster, x := ReadSource(presets, net, srcs[i], statics, roster);
      SuppliedByStep(trace, x);
      FaithfulStep(presets, net, srcs, trace, x, i);
      trace := trace + [x];
      i := i + 1;
    }
    assert srcs[..i] == srcs;
  }

  /** The friend of `sf` is recorded in `s`, failing exactly when its feed
      discovery fails. */
  predicate Recorded(s: Sink, net: Net, sf: StaticFriend) {
    sf.link in FriendsOf(s) && (FriendsOf(s)[sf.link].error == "" <==> Discover(net, sf.link, sf.feedSuffix).Success?)
  }

  /** One step of `Run`'s loop: the friend ends up recorded and no post key
      is lost. */
  lemma ProcessFriendRecords(s: Sink, net: Net, maxPosts: int, sf: StaticFriend, now: int)
    requires sf.link != ""
    ensures Recorded(ProcessFriend(s, net, maxPosts, sf, now), net, sf)
    ensures PostsOf(s).Keys <= PostsOf(ProcessFriend(s, net, maxPosts, sf, now)).Keys
  {
    ProcessFriendStatus(s, net, maxPosts, sf, now);
    ProcessFriendPosts(s, net, maxPosts, sf, now);
  }

  /** The link set of a prefix grows by one friend's link per step. */
  lemma HasLinkPrefix(fs: seq<StaticFriend>, i: nat)
    requires i < |fs|
    ensures forall l :: HasLink(fs[..i + 1], l) <==> HasLink(fs[..i], l) || fs[i].link == l
  {
    forall l | HasLink(fs[..i + 1], l) ensures HasLink(fs[..i], l) || fs[i].link == l {
      var j :| 0 <= j < i + 1 && fs[..i + 1][j].link == l;
      if j < i { assert fs[..i][j] == fs[..i + 1][j]; }
    }
    forall l | HasLink(fs[..i], l) ensures HasLink(fs[..i + 1], l) {
      var j :| 0 <= j < i && fs[..i][j].link == l;
      assert fs[..i + 1][j] == fs[..i][j];
    }
    assert fs[..i + 1][i] == fs[i];
  }

  /** One pass of `Run`'s loop keeps its two invariants about friends. */
  lemma LoopStep(roster: seq<StaticFriend>, i: nat, net: Net, maxPosts: int, s: Sink, r: Sink, now: int)
    requires DistinctLinks(roster) && !HasLink(roster, "") && i < |roster|
    requires forall j :: 0 <= j < i ==> Recorded(r, net, roster[j])
    requires forall l :: l in FriendsOf(r) <==> l in FriendsOf(s) || HasLink(roster[..i], l)
    ensures var r' := ProcessFriend(r, net, maxPosts, roster[i], now);
      forall j :: 0 <= j < i + 1 ==> Recorded(r', net, roster[j])
    ensures var r' := ProcessFriend(r, net, maxPosts, roster[i], now);
      forall l :: l in FriendsOf(r') <==> l in FriendsOf(s) || HasLink(roster[..i + 1], l)
  {
    var sf := roster[i];
    assert sf.link != "";
    var r' := ProcessFriend(r, net, maxPosts, sf, now);
    ProcessFriendRecords(r, net, maxPosts, sf, now);
    HasLinkPrefix(roster, i);
    forall j | 0 <= j < i ensures Recorded(r', net, roster[j]) {
      assert roster[j].link != sf.link;
    }
  }

  /** `processFriend` applied to each roster entry in order. */
  function ProcessEach(s: Sink, net: Net, maxPosts: int, roster: seq<StaticFriend>, now: int): (r: Sink)
    decreases |roster|
    ensures r.Memory? == s.Memory?
    ensures SinkValid(s) ==> SinkValid(r)
  {
    if roster == [] then s
    else
      var n := |roster| - 1;
      ProcessFriend(ProcessEach(s, net, maxPosts, roster[..n], now), net, maxPosts, roster[n], now)
  }

  /** After the loop every entry is recorded with its discovery outcome,
      the only friend keys added are the roster's links, and no post key is
      lost. */
  lemma {:induction false} ProcessEachRecords(s: Sink, net: Net, maxPosts: int, roster: seq<StaticFriend>, now: int)
    requires DistinctLinks(roster) && !HasLink(roster, "")
    decreases |roster|
    ensures var r := ProcessEach(s, net, maxPosts, roster, now);
      forall i :: 0 <= i < |roster| ==> Recorded(r, net, roster[i])
    ensures var r := ProcessEach(s, net, maxPosts, roster, now);
      forall l :: l in FriendsOf(r) <==> l in FriendsOf(s) || HasLink(roster, l)
    ensures PostsOf(s).Keys <= PostsOf(ProcessEach(s, net, maxPosts, roster, now)).Keys
  {
    if roster != [] {
      var n := |roster| - 1;
      var front := roster[..n];
      assert DistinctLinks(front) by {
        forall i, j | 0 <= i < j < n ensures front[i].link != front[j].link {
          assert front[i] == roster[i] && front[j] == roster[j];
        }
      }
      assert !HasLink(front, "") by {
        forall i | 0 <= i < n ensures front[i].link != "" {
          assert front[i] == roster[i];
        }
      }
      ProcessEachRecords(s, net, maxPosts, front, now);
      var mid := ProcessEach(s, net, maxPosts, front, now);
      forall j | 0 <= j < n ensures Recorded(mid, net, roster[j]) {
        assert front[j] == roster[j];
      }
      ProcessFriendRecords(mid, net, maxPosts, roster[n], now) by {
        assert roster[n].link != "";
      }
      LoopStep(roster, n, net, maxPosts, s, mid, now);
      assert roster[..n + 1] == roster;
    }
  }

  /** `Run`'s loop over the roster, one `processFriend` per entry. */
  method ProcessAll(roster: seq<StaticFriend>, net: Net, maxPosts: int, s: Sink, now: int) returns (r: Sink)
    requires DistinctLinks(roster) && !HasLink(roster, "")
    ensures r.Memory? == s.Memory?
    ensures forall i :: 0 <= i < |roster| ==> Recorded(r, net, roster[i])
    ensures forall l :: l in FriendsOf(r) <==> l in FriendsOf(s) || HasLink(roster, l)
    ensures PostsOf(s).Keys <= PostsOf(r).Keys
    ensures SinkValid(s) ==> SinkValid(r)
    ensures r == ProcessEach(s, net, maxPosts, roster, now)
  {
    r := s;
    var i := 0;
    while i < |roster|
      invariant 0 <= i <= |roster|
      invariant r == ProcessEach(s, net, maxPosts, roster[..i], now)
    {
      assert roster[..i + 1][..i] == roster[..i];
      r := ProcessFriend(r, net, maxPosts, roster[i], now);
      i := i + 1;
    }
    assert roster[..i] == roster;
    ProcessEachRecords(s, net, maxPosts, roster, now);
  }

  /** `Run`: every roster friend is recorded with its discovery outcome,
      nothing else is added to the friends, and only store mode cleans.
      Simple mode ends with exactly the sink the roster's entries produce
      one after another; store mode ends with exactly `CleanOldPosts` of
      it, so afterwards no stored post predates the retention window. */
  method Run(cfg: Config, presets: Option<map<string, Preset>>, net: Net, s: Sink, now: int)
    returns (roster: seq<StaticFriend>, trace: seq<SourceRead>, r: Sink)
    ensures r.Memory? == s.Memory?
    ensures Faithful(presets, net, cfg.linkSources, trace)
    ensures DistinctLinks(roster) && !HasLink(roster, "")
    ensures forall l :: HasLink(roster, l) <==> l != "" && (HasLink(cfg.staticFriends, l) || SuppliedBy(trace, l))
    ensures forall j :: FirstOfLink(cfg.staticFriends, j) && cfg.staticFriends[j].link != "" ==> cfg.staticFriends[j] in roster
    ensures forall i :: 0 <= i < |roster| ==> Recorded(r, net, roster[i])
    ensures forall l :: l in FriendsOf(r) <==> l in FriendsOf(s) || HasLink(roster, l)
    ensures r.Memory? ==> PostsOf(s).Keys <= PostsOf(r).Keys
    ensures r.Persistent? && cfg.outdateCleanDays > 0 ==>
      forall k :: k in PostsOf(r) ==> PostsOf(r)[k].created >= Cutoff(cfg.outdateCleanDays, now)
    ensures SinkValid(s) ==> SinkValid(r)
    ensures r.Memory? ==> r == ProcessEach(s, net, cfg.maxPostsNum, roster, now)
    ensures r.Persistent? ==>
      r.db == CleanOldPosts(ProcessEach(s, net, cfg.maxPostsNum, roster, now).db, cfg.outdateCleanDays, now)
  {
    roster, trace := CollectRoster(cfg, presets, net);
    var mid := ProcessAll(roster, net, cfg.maxPostsNum, s, now);
    r := CleanUp(mid, cfg.outdateCleanDays, now);
  }

  /** The step after the loop: store mode deletes the posts outside the
      retention window; simple mode keeps everything. Friends are never
      touched. */
  method CleanUp(mid: Sink, days: int, now: int) returns (r: Sink)
    ensures r.Memory? == mid.Memory?
    ensures r.Memory? ==> r == mid
    ensures r.Persistent? ==> r.db == CleanOldPosts(mid.db, days, now)
    ensures FriendsOf(r) == FriendsOf(mid)
    ensures r.Persistent? && days > 0 ==>
      forall k :: k in PostsOf(r) ==> PostsOf(r)[k].created >= Cutoff(days, now)
    ensures SinkValid(mid) ==> SinkValid(r)
  {
    r := mid;
    if mid.Persistent? {
      r := Persistent(CleanOldPosts(mid.db, days, now));
    }
  }

  /** `BufferData`: the buffer's snapshot in simple mode, nothing otherwise. */
  method BufferData(s: Sink) returns (fr: seq<Friend>, ps: seq<Post>)
    ensures s.Persistent? ==> fr == [] && ps == []
    ensures s.Memory? ==> |fr| == |s.buf.friends| && |ps| == |s.buf.posts|
    ensures s.Memory? ==> forall k :: k in s.buf.friends ==> s.buf.friends[k] in fr
    ensures s.Memory? ==> forall k :: k in s.buf.posts ==> s.buf.posts[k] in ps
    ensures forall i, j :: 0 <= i < j < |fr| ==> !Text.Less(fr[j].name, fr[i].name)
    ensures forall i, j :: 0 <= i < j < |ps| ==> ps[i].created >= ps[j].created
  {
    if s.Persistent? {
      return [], [];
    }
    fr, ps := Snapshot(s.buf);
  }
}

=== FILE: seqs.dfy ===
/** Two sequence scans used throughout: the first index satisfying a test
    (Go's `for ... { if p(x) { return } }` and goquery's `.First()`), and the
    order-preserving filter (a `for` loop that `continue`s past rejects). */
module Seqs {
  import opened Wrappers

  /** The index of the first element satisfying `p`, or None when none does. */
  function FirstIndex<T>(s: seq<T>, p: T -> bool): (r: Option<nat>)
    ensures r.Some? ==> r.value < |s| && p(s[r.value])
    ensures r.Some? ==> forall j :: 0 <= j < r.value ==> !p(s[j])
    ensures r.None? ==> forall j :: 0 <= j < |s| ==> !p(s[j])
  {
    if |s| == 0 then None
    else if p(s[0]) then Some(0)
    else
      match FirstIndex(s[1..], p)
      case None => None
      case Some(i) => Some(i + 1)
  }

  /** The elements satisfying `p`, in their original order. */
  function Filter<T>(s: seq<T>, p: T -> bool): (r: seq<T>)
    ensures |r| <= |s|
    ensures forall i :: 0 <= i < |r| ==> p(r[i]) && r[i] in s
    ensures forall x :: x in s && p(x) ==> x in r
  {
    if |s| == 0 then []
    else (if p(s[0]) then [s[0]] else []) + Filter(s[1..], p)
  }

  /** Filtering distributes over concatenation, so it keeps relative order. */
  lemma {:induction false} FilterAppend<T>(a: seq<T>, b: seq<T>, p: T -> bool)
    ensures Filter(a + b, p) == Filter(a, p) + Filter(b, p)
  {
    if |a| > 0 {
      assert (a + b)[1..] == a[1..] + b;
      FilterAppend(a[1..], b, p);
    } else {
      assert a + b == b;
    }
  }

  /** The present results of `f` over `s`, in order (a loop that appends
      `f(x)` when there is one and skips `x` otherwise). */
  function FilterMap<A, B>(s: seq<A>, f: A -> Option<B>): (r: seq<B>)
    ensures |r| <= |s|
    ensures forall y :: y in r ==> exists x :: x in s && f(x) == Some(y)
    ensures forall x :: x in s && f(x).Some? ==> f(x).value in r
  {
    if |s| == 0 then []
    else
      var rest := FilterMap(s[1..], f);
      assert forall x :: x in s[1..] ==> x in s;
      (match f(s[0]) case None => [] case Some(y) => [y]) + rest
  }

  lemma {:induction false} FilterMapAppend<A, B>(a: seq<A>, b: seq<A>, f: A -> Option<B>)
    ensures FilterMap(a + b, f) == FilterMap(a, f) + FilterMap(b, f)
  {
    if |a| > 0 {
      assert (a + b)[1..] == a[1..] + b;
      FilterMapAppend(a[1..], b, f);
    } else {
      assert a + b == b;
    }
  }
}

=== FILE: simplebuf.dfy ===
/** The in-memory sink of simple mode (internal/aggregate/simplebuf.go): two
    maps keyed by link, last write wins, and a sorted snapshot. The mutex is
    not modelled; calls are sequential. */
module SimpleBuf {
  import opened Model
  import opened Sorting
  import Text

  datatype Buffer = Buffer(friends: map<string, Friend>, posts: map<string, Post>)

  /** `NewSimpleBuffer`. */
  const EmptyBuffer := Buffer(map[], map[])

  /** Every entry is stored under its own, non-empty link. */
  predicate Valid(b: Buffer) {
    && FriendsKeyed(b.friends) && "" !in b.friends
    && PostsKeyed(b.posts) && "" !in b.posts
  }

  /** `AddFriend`: ignored for an empty link, otherwise replaces whatever
      was stored under that link; posts are untouched. */
  function AddFriend(b: Buffer, f: Friend): (r: Buffer)
    ensures r.posts == b.posts
    ensures f.link == "" ==> r == b
    ensures f.link != "" ==> f.link in r.friends && r.friends[f.link] == f
    ensures r.friends.Keys == b.friends.Keys + (if f.link == "" then {} else {f.link})
    ensures forall k :: k in b.friends && k != f.link ==> r.friends[k] == b.friends[k]
    ensures Valid(b) ==> Valid(r)
  {
    if f.link == "" then b else b.(friends := b.friends[f.link := f])
  }

  /** `AddPost`: the same for posts. */
  function AddPost(b: Buffer, p: Post): (r: Buffer)
    ensures r.friends == b.friends
    ensures p.link == "" ==> r == b
    ensures p.link != "" ==> p.link in r.posts && r.posts[p.link] == p
    ensures r.posts.Keys == b.posts.Keys + (if p.link == "" then {} else {p.link})
    ensures forall k :: k in b.posts && k != p.link ==> r.posts[k] == b.posts[k]
    ensures Valid(b) ==> Valid(r)
  {
    if p.link == "" then b else b.(posts := b.posts[p.link := p])
  }

  /** Adding the same friend twice is adding it once. */
  lemma AddFriendIdempotent(b: Buffer, f: Friend)
    ensures AddFriend(AddFriend(b, f), f) == AddFriend(b, f)
  {
  }

  /** Adding the same post twice is adding it once. */
  lemma AddPostIdempotent(b: Buffer, p: Post)
    ensures AddPost(AddPost(b, p), p) == AddPost(b, p)
  {
  }

  /** `AddPost` applied to each element of `list` in order. */
  function AddEach(b: Buffer, list: seq<Post>): Buffer
    decreases |list|
  {
    if list == [] then b else AddPost(AddEach(b, list[..|list| - 1]), list[|list| - 1])
  }

  /** `AddPosts`: one pass over `list` under the lock, skipping empty links.
      It is `AddPost` applied to each element in order. */
  method AddPosts(b: Buffer, list: seq<Post>) returns (r: Buffer)
    ensures r == AddEach(b, list)
    ensures r.friends == b.friends
  {
    var posts := b.posts;
    var i := 0;
    while i < |list|
      invariant 0 <= i <= |list|
      invariant Buffer(b.friends, posts) == AddEach(b, list[..i])
    {
      var p := list[i];
      assert list[..i + 1][..i] == list[..i];
      if p.link != "" {
        posts := posts[p.link := p];
      }
      i := i + 1;
    }
    assert list[..|list|] == list;
    r := Buffer(b.friends, posts);
  }

  /** Last write wins: after adding a list, a non-empty link holds the last
      post of the list carrying it. */
  lemma {:induction false} LastPostWins(b: Buffer, list: seq<Post>, i: nat)
    requires i < |list| && list[i].link != ""
    requires forall j :: i < j < |list| ==> list[j].link != list[i].link
    ensures list[i].link in AddEach(b, list).posts
    ensures AddEach(b, list).posts[list[i].link] == list[i]
  {
    var n := |list| - 1;
    if i < n {
      LastPostWins(b, list[..n], i);
      assert list[..n][i] == list[i];
    }
  }

  /** Some post of `list` carries link `l`. */
  predicate HasPostLink(list: seq<Post>, l: string) {
    exists i :: 0 <= i < |list| && list[i].link == l
  }

  /** The links of a non-empty list are those of its front plus its last. */
  lemma HasPostLinkSnoc(list: seq<Post>)
    requires list != []
    ensures forall l :: HasPostLink(list, l) <==> HasPostLink(list[..|list| - 1], l) || list[|list| - 1].link == l
  {
    var n := |list| - 1;
    forall l | HasPostLink(list, l) ensures HasPostLink(list[..n], l) || list[n].link == l {
      var i :| 0 <= i < |list| && list[i].link == l;
      if i < n { assert list[..n][i] == list[i]; }
    }
    forall l | HasPostLink(list[..n], l) ensures HasPostLink(list, l) {
      var i :| 0 <= i < n && list[..n][i].link == l;
      assert list[i] == list[..n][i];
    }
  }

  /** Adding a list never loses a link: the keys are the old keys plus every
      non-empty link of the list. */
  lemma {:induction false} AddEachKeys(b: Buffer, list: seq<Post>)
    ensures forall l :: l in AddEach(b, list).posts <==> l in b.posts || (l != "" && HasPostLink(list, l))
    ensures AddEach(b, list).friends == b.friends
  {
    if list != [] {
      var n := |list| - 1;
      AddEachKeys(b, list[..n]);
      HasPostLinkSnoc(list);
      assert AddEach(b, list) == AddPost(AddEach(b, list[..n]), list[n]);
    }
  }

  /** `Snapshot`: the stored friends sorted by name ascending and the stored
      posts newest first, each holding every stored value once. The buffer
      is a value and stays as it was. */
  method Snapshot(b: Buffer) returns (fr: seq<Friend>, ps: seq<Post>)
    ensures |fr| == |b.friends| && |ps| == |b.posts|
    ensures ValuesOnce(b.friends, fr) && ValuesOnce(b.posts, ps)
    ensures forall k :: k in b.friends ==> b.friends[k] in fr
    ensures forall f :: f in fr ==> f in b.friends.Values
    ensures forall k :: k in b.posts ==> b.posts[k] in ps
    ensures forall p :: p in ps ==> p in b.posts.Values
    ensures forall i, j :: 0 <= i < j < |fr| ==> !Text.Less(fr[j].name, fr[i].name)
    ensures forall i, j :: 0 <= i < j < |ps| ==> ps[i].created >= ps[j].created
  {
    fr := SortedFriends(b.friends);
    ps := SortedPosts(b.posts);
  }
}

=== FILE: sorting.dfy ===
/** The two orders the aggregator lists records in (friends by name
    ascending, posts by creation time descending), a sort producing them, and
    the enumeration of a Go map's values in an unspecified order. */
module Sorting {
  import opened Text
  import opened Model

  /** `le` is a total preorder: any two elements compare, transitively. */
  ghost predicate TotalPreorder<T(!new)>(le: (T, T) -> bool) {
    && (forall a, b :: le(a, b) || le(b, a))
    && (forall a, b, c :: le(a, b) && le(b, c) ==> le(a, c))
  }

  /** Every earlier element may precede every later one. */
  predicate Sorted<T>(s: seq<T>, le: (T, T) -> bool) {
    forall i, j :: 0 <= i < j < |s| ==> le(s[i], s[j])
  }

  /** Insert `x` before the first element it may precede. */
  function Insert<T(!new)>(x: T, s: seq<T>, le: (T, T) -> bool): (r: seq<T>)
    requires TotalPreorder(le)
    requires Sorted(s, le)
    ensures multiset(r) == multiset(s) + multiset{x}
    ensures Sorted(r, le)
  {
    if s == [] then [x]
    else if le(x, s[0]) then
      assert forall j :: 0 <= j < |s| ==> le(x, s[j]) by {
        forall j | 0 <= j < |s| ensures le(x, s[j]) {
          if j > 0 { assert le(s[0], s[j]); }
        }
      }
      [x] + s
    else
      var rest := Insert(x, s[1..], le);
      assert le(s[0], x);
      assert s == [s[0]] + s[1..];
      assert forall j :: 0 <= j < |rest| ==> le(s[0], rest[j]) by {
        forall j | 0 <= j < |rest| ensures le(s[0], rest[j]) {
          assert rest[j] in multiset(rest);
          if rest[j] != x {
            assert rest[j] in multiset(s[1..]);
            var k :| 1 <= k < |s| && s[k] == rest[j] by {
              assert rest[j] in s[1..];
            }
          }
        }
      }
      [s[0]] + rest
  }

  /** A sorted permutation of `s` (insertion sort). */
  function Sort<T(!new)>(s: seq<T>, le: (T, T) -> bool): (r: seq<T>)
    requires TotalPreorder(le)
    ensures multiset(r) == multiset(s)
    ensures Sorted(r, le)
  {
    if s == [] then []
    else
      var n := |s| - 1;
      var rest := Sort(s[..n], le);
      assert s == s[..n] + [s[n]];
      assert multiset(s) == multiset(s[..n]) + multiset{s[n]};
      Insert(s[n], rest, le)
  }

  /** `fr[i].Name < fr[j].Name` as a non-strict order: `a` may precede `b`
      unless `b`'s name is smaller. */
  function ByName(a: Friend, b: Friend): bool {
    !Less(b.name, a.name)
  }

  /** `ps[i].Created.After(ps[j].Created)` as a non-strict order: newer
      first. */
  function NewestFirst(a: Post, b: Post): bool {
    a.created >= b.created
  }

  lemma ByNameIsTotalPreorder()
    ensures TotalPreorder(ByName)
  {
    forall a: Friend, b: Friend ensures ByName(a, b) || ByName(b, a) {
      if Less(b.name, a.name) && Less(a.name, b.name) {
        LessTransitive(a.name, b.name, a.name);
        LessIrreflexive(a.name);
      }
    }
    forall a: Friend, b: Friend, c: Friend | ByName(a, b) && ByName(b, c) ensures ByName(a, c) {
      if Less(c.name, a.name) {
        LessTotal(a.name, b.name);
        if Less(a.name, b.name) {
          LessTransitive(c.name, a.name, b.name);
        }
      }
    }
  }

  lemma NewestFirstIsTotalPreorder()
    ensures TotalPreorder(NewestFirst)
  {
  }

  /** Friends sorted by name ascending. */
  function SortByName(fs: seq<Friend>): (r: seq<Friend>)
    ensures multiset(r) == multiset(fs)
    ensures forall i, j :: 0 <= i < j < |r| ==> !Less(r[j].name, r[i].name)
  {
    ByNameIsTotalPreorder();
    Sort(fs, ByName)
  }

  /** Posts sorted by creation time, newest first. */
  function SortNewestFirst(ps: seq<Post>): (r: seq<Post>)
    ensures multiset(r) == multiset(ps)
    ensures forall i, j :: 0 <= i < j < |r| ==> r[i].created >= r[j].created
  {
    NewestFirstIsTotalPreorder();
    Sort(ps, NewestFirst)
  }

  /** `for _, v := range m`: the values of `m` in whatever order Go's map
      iteration produces, each key visited once. `ks[i]` is the key of
      `vs[i]`. */
  method Enumerate<V>(m: map<string, V>) returns (ks: seq<string>, vs: seq<V>)
    ensures |ks| == |vs| == |m|
    ensures forall i :: 0 <= i < |ks| ==> ks[i] in m && vs[i] == m[ks[i]]
    ensures forall i, j :: 0 <= i < j < |ks| ==> ks[i] != ks[j]
    ensures forall k :: k in m ==> k in ks
  {
    var rest := m;
    ks, vs := [], [];
    while rest != map[]
      invariant |ks| == |vs|
      invariant forall k :: k in rest ==> k in m && rest[k] == m[k]
      invariant forall i :: 0 <= i < |ks| ==> ks[i] in m && ks[i] !in rest && vs[i] == m[ks[i]]
      invariant forall i, j :: 0 <= i < j < |ks| ==> ks[i] != ks[j]
      invariant forall k :: k in m ==> k in rest || k in ks
      decreases |rest|
    {
      var k :| k in rest;
      ks, vs := ks + [k], vs + [rest[k]];
      rest := rest - {k};
    }
    assert m.Keys == set i | 0 <= i < |ks| :: ks[i];
    DistinctCount(ks);
  }

  /** A sequence without repetitions has as many elements as its set. */
  lemma {:induction false} DistinctCount(ks: seq<string>)
    requires forall i, j :: 0 <= i < j < |ks| ==> ks[i] != ks[j]
    ensures |set i | 0 <= i < |ks| :: ks[i]| == |ks|
  {
    if ks != [] {
      var init := ks[..|ks| - 1];
      DistinctCount(init);
      var a := set i | 0 <= i < |init| :: init[i];
      var b := set i | 0 <= i < |ks| :: ks[i];
      assert b == a + {ks[|ks| - 1]};
      assert ks[|ks| - 1] !in a;
    }
  }

  /** `ks` lists every key of `m` exactly once: as many distinct keys as
      `m` has (`KeyOrderCovers` shows none is missing). */
  predicate KeyOrder<V>(m: map<string, V>, ks: seq<string>) {
    && |ks| == |m|
    && (forall i :: 0 <= i < |ks| ==> ks[i] in m)
    && (forall i, j :: 0 <= i < j < |ks| ==> ks[i] != ks[j])
  }

  /** A key order misses no key. */
  lemma KeyOrderCovers<V>(m: map<string, V>, ks: seq<string>)
    requires KeyOrder(m, ks)
    ensures forall k :: k in m ==> k in ks
  {
    DistinctCount(ks);
    var listed := set i | 0 <= i < |ks| :: ks[i];
    forall k | k in m ensures k in ks {
      if k !in ks {
        SubsetCount(listed, m.Keys - {k});
      }
    }
  }

  /** A subset is no larger than its superset. */
  lemma {:induction false} SubsetCount(a: set<string>, b: set<string>)
    requires a <= b
    ensures |a| <= |b|
    decreases a
  {
    if a != {} {
      var x :| x in a;
      SubsetCount(a - {x}, b - {x});
    }
  }

  /** The values of `m` under the keys `ks`, in that order. */
  function ValuesAt<V>(m: map<string, V>, ks: seq<string>): (vs: seq<V>)
    requires forall i :: 0 <= i < |ks| ==> ks[i] in m
    ensures |vs| == |ks|
    ensures forall i :: 0 <= i < |ks| ==> vs[i] == m[ks[i]]
  {
    seq(|ks|, i requires 0 <= i < |ks| => m[ks[i]])
  }

  /** `vs` holds the value of every key of `m` once: a permutation of the
      values listed in some key order, so a value shared by two keys
      appears twice. */
  ghost predicate ValuesOnce<V>(m: map<string, V>, vs: seq<V>) {
    exists ks :: KeyOrder(m, ks) && multiset(vs) == multiset(ValuesAt(m, ks))
  }

  /** The values of a friend map sorted by name ascending, each once. */
  method SortedFriends(m: map<string, Friend>) returns (fr: seq<Friend>)
    ensures |fr| == |m|
    ensures forall k :: k in m ==> m[k] in fr
    ensures forall f :: f in fr ==> f in m.Values
    ensures forall i, j :: 0 <= i < j < |fr| ==> !Less(fr[j].name, fr[i].name)
    ensures ValuesOnce(m, fr)
  {
    var ks, vs := Enumerate(m);
    fr := SortByName(vs);
    PermutedMembers(vs, fr);
    assert vs == ValuesAt(m, ks);
    assert KeyOrder(m, ks);
    ListedValues(m, ks, vs);
    assert |fr| == |multiset(fr)| == |multiset(vs)| == |vs|;
  }

  /** The values of a post map sorted newest first, each once. */
  method SortedPosts(m: map<string, Post>) returns (ps: seq<Post>)
    ensures |ps| == |m|
    ensures forall k :: k in m ==> m[k] in ps
    ensures forall p :: p in ps ==> p in m.Values
    ensures forall i, j :: 0 <= i < j < |ps| ==> ps[i].created >= ps[j].created
    ensures ValuesOnce(m, ps)
  {
    var ks, vs := Enumerate(m);
    ps := SortNewestFirst(vs);
    PermutedMembers(vs, ps);
    assert vs == ValuesAt(m, ks);
    assert KeyOrder(m, ks);
    ListedValues(m, ks, vs);
    assert |ps| == |multiset(ps)| == |multiset(vs)| == |vs|;
  }

  /** The values `Enumerate` lists are exactly the map's values. */
  lemma ListedValues<V>(m: map<string, V>, ks: seq<string>, vs: seq<V>)
    requires |ks| == |vs|
    requires forall i :: 0 <= i < |ks| ==> ks[i] in m && vs[i] == m[ks[i]]
    requires forall k :: k in m ==> k in ks
    ensures forall k :: k in m ==> m[k] in vs
    ensures forall v :: v in vs ==> v in m.Values
  {
    forall k | k in m ensures m[k] in vs {
      var i :| 0 <= i < |ks| && ks[i] == k;
      assert vs[i] == m[k];
    }
    forall v | v in vs ensures v in m.Values {
      var i :| 0 <= i < |vs| && vs[i] == v;
      assert m[ks[i]] == v;
    }
  }

  /** A permutation has the same members. */
  lemma PermutedMembers<T>(a: seq<T>, b: seq<T>)
    requires multiset(a) == multiset(b)
    ensures forall x :: x in a <==> x in b
  {
    forall x ensures x in a <==> x in b {
      assert x in a <==> x in multiset(a);
      assert x in b <==> x in multiset(b);
    }
  }
}

=== FILE: store.dfy ===
/** The persistent sink of internal/store/sqlite.go as two tables keyed by
    their UNIQUE link column. Each statement's conflict clause is modelled
    exactly; `now` is the wall clock at the time of the call. */
module Store {
  import opened Wrappers
  import opened Model
  import opened Sorting
  import Text

  datatype Db = Db(friends: map<string, Friend>, posts: map<string, Post>)

  /** Every row sits under its own link. */
  predicate Valid(db: Db) {
    FriendsKeyed(db.friends) && PostsKeyed(db.posts)
  }

  const SecondsPerDay := 86400

  /** `nowOr`: the given time unless it is the zero time. */
  function NowOr(t: int, now: int): (r: int)
    ensures t != ZeroTime ==> r == t
    ensures t == ZeroTime ==> r == now
  {
    if t == ZeroTime then now else t
  }

  /** `UpsertFriend`: insert a new link with `created_at = nowOr(...)`; on
      a conflicting link overwrite name, avatar and error only, keeping the
      stored `created_at`. An empty link is a row like any other. */
  function UpsertFriend(db: Db, f: Friend, now: int): (r: Db)
    ensures r.posts == db.posts
    ensures r.friends.Keys == db.friends.Keys + {f.link}
    ensures forall k :: k in db.friends && k != f.link ==> r.friends[k] == db.friends[k]
    ensures f.link !in db.friends ==> r.friends[f.link] == f.(createdAt := NowOr(f.createdAt, now))
    ensures f.link in db.friends ==> r.friends[f.link] == f.(createdAt := db.friends[f.link].createdAt)
    ensures Valid(db) ==> Valid(r)
  {
    var row :=
      if f.link in db.friends then
        f.(createdAt := db.friends[f.link].createdAt)
      else f.(createdAt := NowOr(f.createdAt, now));
    db.(friends := db.friends[f.link := row])
  }

  /** `UpsertPost`: an empty link is refused before any write; otherwise
      insert, or on conflict overwrite every column but `created_at`. */
  function UpsertPost(db: Db, p: Post, now: int): (r: Result<Db>)
    ensures p.link == "" <==> r.Failure?
    ensures r.Failure? ==> r.error == "post.link required"
    ensures r.Success? ==> r.value.friends == db.friends
    ensures r.Success? ==> r.value.posts.Keys == db.posts.Keys + {p.link}
    ensures r.Success? ==> forall k :: k in db.posts && k != p.link ==> r.value.posts[k] == db.posts[k]
    ensures r.Success? && p.link !in db.posts ==> r.value.posts[p.link] == p.(createdAt := NowOr(p.createdAt, now))
    ensures r.Success? && p.link in db.posts ==> r.value.posts[p.link] == p.(createdAt := db.posts[p.link].createdAt)
    ensures r.Success? && Valid(db) ==> Valid(r.value)
  {
    if p.link == "" then Failure("post.link required")
    else
      var row :=
        if p.link in db.posts then
          p.(createdAt := db.posts[p.link].createdAt)
        else p.(createdAt := NowOr(p.createdAt, now));
      Success(db.(posts := db.posts[p.link := row]))
  }

  /** Once a row exists its `created_at` never changes, whatever is upserted. */
  lemma CreatedAtIsStable(db: Db, f: Friend, p: Post, now: int)
    ensures forall k :: k in db.friends ==> UpsertFriend(db, f, now).friends[k].createdAt == db.friends[k].createdAt
    ensures UpsertPost(db, p, now).Success? ==>
      forall k :: k in db.posts ==> UpsertPost(db, p, now).value.posts[k].createdAt == db.posts[k].createdAt
  {
  }

  /** Upserting the same friend again changes nothing. */
  lemma UpsertFriendIdempotent(db: Db, f: Friend, now: int, later: int)
    ensures UpsertFriend(UpsertFriend(db, f, now), f, later) == UpsertFriend(db, f, now)
  {
  }

  /** The cutoff of `datetime('now', '-N days')`. */
  function Cutoff(days: int, now: int): int {
    now - days * SecondsPerDay
  }

  /** `CleanOldPosts`: nothing for `days <= 0`; otherwise drop exactly the
      posts created before the cutoff. Friends are untouched. */
  function CleanOldPosts(db: Db, days: int, now: int): (r: Db)
    ensures r.friends == db.friends
    ensures days <= 0 ==> r == db
    ensures days > 0 ==> forall k :: k in r.posts <==> k in db.posts && db.posts[k].created >= Cutoff(days, now)
    ensures forall k :: k in r.posts ==> k in db.posts && r.posts[k] == db.posts[k]
    ensures Valid(db) ==> Valid(r)
  {
    if days <= 0 then db
    else
      var cutoff := Cutoff(days, now);
      db.(posts := map k | k in db.posts && db.posts[k].created >= cutoff :: db.posts[k])
  }

  /** Cleaning twice with the same threshold is cleaning once. */
  lemma CleanIdempotent(db: Db, days: int, now: int)
    ensures CleanOldPosts(CleanOldPosts(db, days, now), days, now) == CleanOldPosts(db, days, now)
  {
  }

  /** A longer retention keeps everything a shorter one keeps. */
  lemma CleanMonotone(db: Db, shorter: int, longer: int, now: int)
    requires 0 < shorter <= longer
    ensures CleanOldPosts(db, shorter, now).posts.Keys <= CleanOldPosts(db, longer, now).posts.Keys
  {
  }

  /** The links of friends whose error is empty (NULL errors do not arise
      in this model: every write supplies a string). */
  function AliveLinks(db: Db): set<string> {
    set k | k in db.friends && db.friends[k].error == ""
  }

  /** `Stats`: the counts of the two tables and the alive friends. */
  function Stats(db: Db, now: int): (st: Model.Stats)
    ensures st.friendsTotal == |db.friends| && st.postsTotal == |db.posts|
    ensures st.friendsAlive == |AliveLinks(db)|
    ensures 0 <= st.friendsAlive <= st.friendsTotal
    ensures st.friendsAlive + st.friendsError == st.friendsTotal
    ensures st.friendsError >= 0
    ensures st.updatedAt == now
  {
    var alive := AliveLinks(db);
    assert alive <= db.friends.Keys;
    SubsetCard(alive, db.friends.Keys);
    Model.Stats(|db.friends|, |alive|, |db.friends| - |alive|, |db.posts|, now)
  }

  lemma SubsetCard(a: set<string>, b: set<string>)
    requires a <= b
    ensures |a| <= |b|
  {
    assert b == a + (b - a);
  }

  /** A friend written with an empty error counts as alive, and one
      written with a non-empty error counts as failing. */
  lemma UpsertFriendAlive(db: Db, f: Friend, now: int)
    ensures f.error == "" ==> f.link in AliveLinks(UpsertFriend(db, f, now))
    ensures f.error != "" ==> f.link !in AliveLinks(UpsertFriend(db, f, now))
  {
  }

  /** A new friend joins the alive links exactly when its error is empty. */
  lemma NewFriendAlive(db: Db, f: Friend, now: int)
    requires f.link !in db.friends
    ensures f.error == "" ==> AliveLinks(UpsertFriend(db, f, now)) == AliveLinks(db) + {f.link}
    ensures f.error != "" ==> AliveLinks(UpsertFriend(db, f, now)) == AliveLinks(db)
  {
  }

  /** A new friend adds one row. */
  lemma NewFriendCount(db: Db, f: Friend, now: int)
    requires f.link !in db.friends
    ensures |UpsertFriend(db, f, now).friends| == |db.friends| + 1
  {
    assert UpsertFriend(db, f, now).friends == db.friends[f.link := f.(createdAt := NowOr(f.createdAt, now))];
  }

  /** Recording a new friend adds one to the total and one to the alive or
      the failing count, according to its error. */
  lemma UpsertNewFriendStats(db: Db, f: Friend, now: int, at: int)
    requires f.link !in db.friends
    ensures Stats(UpsertFriend(db, f, now), at).friendsTotal == Stats(db, at).friendsTotal + 1
    ensures f.error == "" ==> Stats(UpsertFriend(db, f, now), at).friendsAlive == Stats(db, at).friendsAlive + 1
    ensures f.error == "" ==> Stats(UpsertFriend(db, f, now), at).friendsError == Stats(db, at).friendsError
    ensures f.error != "" ==> Stats(UpsertFriend(db, f, now), at).friendsAlive == Stats(db, at).friendsAlive
    ensures f.error != "" ==> Stats(UpsertFriend(db, f, now), at).friendsError == Stats(db, at).friendsError + 1
  {
    NewFriendAlive(db, f, now);
    NewFriendCount(db, f, now);
    assert f.link !in AliveLinks(db);
  }

  /** `Reset`: both tables emptied. */
  function Reset(db: Db): (r: Db)
    ensures |r.friends| == 0 && |r.posts| == 0
    ensures Valid(r)
  {
    Db(map[], map[])
  }

  /** After `Reset` every count is zero. */
  lemma ResetStats(db: Db, now: int)
    ensures Stats(Reset(db), now) == Model.Stats(0, 0, 0, 0, now)
  {
    assert AliveLinks(Reset(db)) == {};
  }

  /** `ListFriends`: every friend row once, ordered by name. */
  method ListFriends(db: Db) returns (fr: seq<Friend>)
    ensures |fr| == |db.friends|
    ensures ValuesOnce(db.friends, fr)
    ensures forall k :: k in db.friends ==> db.friends[k] in fr
    ensures forall f :: f in fr ==> f in db.friends.Values
    ensures forall i, j :: 0 <= i < j < |fr| ==> !Text.Less(fr[j].name, fr[i].name)
  {
    fr := SortedFriends(db.friends);
  }

  /** `ListPosts`: every post row once, newest first. */
  method ListPosts(db: Db) returns (ps: seq<Post>)
    ensures |ps| == |db.posts|
    ensures ValuesOnce(db.posts, ps)
    ensures forall k :: k in db.posts ==> db.posts[k] in ps
    ensures forall p :: p in ps ==> p in db.posts.Values
    ensures forall i, j :: 0 <= i < j < |ps| ==> ps[i].created >= ps[j].created
  {
    ps := SortedPosts(db.posts);
  }
}

=== FILE: text.dfy ===
/** The subset of Go's `strings` package the aggregator relies on, over
    `string = seq<char>`: white-space trimming, ASCII case folding, searching,
    splitting and joining, lexicographic order and decimal rendering. */
module Text {

  /** Go's `unicode.IsSpace`: the ASCII spaces, NEL, NBSP and the Unicode
      White_Space characters above Latin-1. */
  predicate IsSpace(c: char) {
    || c == ' ' || c == '\t' || c == '\n' || c == '\r'
    || c == '\U{000B}' || c == '\U{000C}' || c == '\U{0085}' || c == '\U{00A0}'
    || c == '\U{1680}' || ('\U{2000}' <= c <= '\U{200A}')
    || c == '\U{2028}' || c == '\U{2029}' || c == '\U{202F}' || c == '\U{205F}'
    || c == '\U{3000}'
  }

  /** Neither end of `s` is white space. */
  predicate IsTrimmed(s: string) {
    s == [] || (!IsSpace(s[0]) && !IsSpace(s[|s| - 1]))
  }

  function TrimLeft(s: string): (r: string)
    ensures |r| <= |s| && r == s[|s| - |r|..]
    ensures r == [] || !IsSpace(r[0])
    ensures forall i :: 0 <= i < |s| - |r| ==> IsSpace(s[i])
  {
    if |s| > 0 && IsSpace(s[0]) then TrimLeft(s[1..]) else s
  }

  function TrimRight(s: string): (r: string)
    ensures |r| <= |s| && r == s[..|r|]
    ensures r == [] || !IsSpace(r[|r| - 1])
    ensures forall i :: |r| <= i < |s| ==> IsSpace(s[i])
  {
    if |s| > 0 && IsSpace(s[|s| - 1]) then TrimRight(s[..|s| - 1]) else s
  }

  /** Go's `strings.TrimSpace`: the longest infix of `s` that neither starts
      nor ends with white space, everything cut off being white space. */
  function Trim(s: string): (r: string)
    ensures IsTrimmed(r)
    ensures |r| <= |s|
    ensures r == [] <==> forall i :: 0 <= i < |s| ==> IsSpace(s[i])
  {
    var l := TrimLeft(s);
    var r := TrimRight(l);
    r
  }

  lemma TrimOfTrimmed(s: string)
    requires IsTrimmed(s)
    ensures Trim(s) == s
  {
  }

  lemma TrimIdempotent(s: string)
    ensures Trim(Trim(s)) == Trim(s)
  {
    TrimOfTrimmed(Trim(s));
  }

  /** ASCII case folding. Go's `strings.ToLower` and `bytes.ToLower` fold
      all of Unicode, which this does not. */
  function LowerChar(c: char): char {
    if 'A' <= c <= 'Z' then (c as int + 32) as char else c
  }

  function Lower(s: string): (r: string)
    ensures |r| == |s|
    ensures forall i :: 0 <= i < |s| ==> r[i] == LowerChar(s[i])
  {
    seq(|s|, i requires 0 <= i < |s| => LowerChar(s[i]))
  }

  lemma LowerIdempotent(s: string)
    ensures Lower(Lower(s)) == Lower(s)
  {
  }

  predicate HasPrefix(s: string, p: string) {
    |p| <= |s| && s[..|p|] == p
  }

  predicate HasSuffix(s: string, p: string) {
    |p| <= |s| && s[|s| - |p|..] == p
  }

  /** Go's `strings.TrimPrefix`: drop `p` once if `s` starts with it. */
  function TrimPrefix(s: string, p: string): (r: string)
    ensures HasPrefix(s, p) ==> p + r == s
    ensures !HasPrefix(s, p) ==> r == s
  {
    if HasPrefix(s, p) then s[|p|..] else s
  }

  /** `t` occurs in `s` starting at index `i`. */
  predicate OccursAt(s: string, t: string, i: int) {
    0 <= i && i + |t| <= |s| && s[i..i + |t|] == t
  }

  function IndexFrom(s: string, t: string, from: nat): (r: int)
    decreases |s| - from
    ensures r == -1 || (from <= r && OccursAt(s, t, r))
    ensures r == -1 ==> forall i :: from <= i ==> !OccursAt(s, t, i)
    ensures r != -1 ==> forall i :: from <= i < r ==> !OccursAt(s, t, i)
  {
    if from + |t| > |s| then -1
    else if s[from..from + |t|] == t then from
    else IndexFrom(s, t, from + 1)
  }

  /** Go's `strings.Index`: the first occurrence of `t` in `s`, or -1. */
  function IndexOf(s: string, t: string): (r: int)
    ensures r == -1 || OccursAt(s, t, r)
    ensures r == -1 ==> forall i :: !OccursAt(s, t, i)
    ensures r != -1 ==> forall i :: 0 <= i < r ==> !OccursAt(s, t, i)
  {
    IndexFrom(s, t, 0)
  }

  /** Go's `strings.Contains`. */
  predicate Contains(s: string, t: string)
    ensures Contains(s, t) <==> exists i :: OccursAt(s, t, i)
  {
    IndexOf(s, t) >= 0
  }

  /** Go's `strings.IndexAny`: first index of a character of `cs`, or -1. */
  function IndexAny(s: string, cs: set<char>): (r: int)
    ensures -1 <= r < |s|
    ensures r == -1 ==> forall i :: 0 <= i < |s| ==> s[i] !in cs
    ensures r >= 0 ==> s[r] in cs && forall i :: 0 <= i < r ==> s[i] !in cs
  {
    if |s| == 0 then -1
    else if s[0] in cs then 0
    else
      var k := IndexAny(s[1..], cs);
      if k < 0 then -1 else k + 1
  }

  /** Go's `strings.Join`. */
  function Join(parts: seq<string>, sep: string): string {
    if |parts| == 0 then ""
    else if |parts| == 1 then parts[0]
    else parts[0] + sep + Join(parts[1..], sep)
  }

  /** Go's `strings.Split` for a non-empty separator: cut at every
      occurrence, scanning left to right. Joining the parts gives back `s`,
      and no part contains the separator. */
  function Split(s: string, sep: string): (parts: seq<string>)
    requires |sep| > 0
    decreases |s|
    ensures |parts| >= 1
    ensures Join(parts, sep) == s
    ensures forall k :: 0 <= k < |parts| ==> !Contains(parts[k], sep)
  {
    var i := IndexOf(s, sep);
    if i < 0 then [s]
    else
      var head := s[..i];
      var rest := Split(s[i + |sep|..], sep);
      assert s == head + sep + s[i + |sep|..];
      assert !Contains(head, sep) by {
        forall j | OccursAt(head, sep, j) ensures false {
          assert s[j..j + |sep|] == head[j..j + |sep|];
          assert OccursAt(s, sep, j);
        }
      }
      [head] + rest
  }

  /** No character of `s` is `c`. */
  predicate Free(s: string, c: char) {
    forall i :: 0 <= i < |s| ==> s[i] != c
  }

  lemma {:induction false} FreeHasNoPipes(s: string)
    requires Free(s, '|')
    ensures !Contains(s, "||")
  {
    forall i | 0 <= i ensures !OccursAt(s, "||", i) {
      if i + 2 <= |s| {
        assert s[i..i + 2][0] == s[i];
      }
    }
  }

  /** Splitting on "||" undoes joining on "||" when no part holds a '|'. */
  lemma {:induction false} SplitJoin(parts: seq<string>)
    requires |parts| >= 1
    requires forall k :: 0 <= k < |parts| ==> Free(parts[k], '|')
    ensures Split(Join(parts, "||"), "||") == parts
  {
    if |parts| == 1 {
      FreeHasNoPipes(parts[0]);
    } else {
      var p := parts[0];
      var tail := Join(parts[1..], "||");
      var s := p + "||" + tail;
      assert Join(parts, "||") == s;
      assert OccursAt(s, "||", |p|) by {
        assert s[|p|..|p| + 2] == "||";
      }
      forall i | 0 <= i < |p| ensures !OccursAt(s, "||", i) {
        assert s[i] == p[i];
      }
      var idx := IndexOf(s, "||");
      assert idx == |p|;
      assert s[..idx] == p;
      assert s[idx + 2..] == tail;
      SplitJoin(parts[1..]);
    }
  }

  /** Joined parts contain the separator "||" exactly when there are at
      least two of them (no part holding a '|'). */
  lemma {:induction false} JoinContainsPipes(parts: seq<string>)
    requires |parts| >= 1
    requires forall k :: 0 <= k < |parts| ==> Free(parts[k], '|')
    ensures Contains(Join(parts, "||"), "||") <==> |parts| >= 2
  {
    if |parts| == 1 {
      FreeHasNoPipes(parts[0]);
    } else {
      var s := parts[0] + "||" + Join(parts[1..], "||");
      assert OccursAt(s, "||", |parts[0]|) by {
        assert s[|parts[0]|..|parts[0]| + 2] == "||";
      }
    }
  }

  /** A join of trimmed non-empty parts is itself trimmed. */
  lemma {:induction false} JoinTrimmed(parts: seq<string>, sep: string)
    requires |parts| >= 1
    requires forall k :: 0 <= k < |parts| ==> parts[k] != [] && IsTrimmed(parts[k])
    ensures Join(parts, sep) != []
    ensures Join(parts, sep)[0] == parts[0][0]
    ensures Join(parts, sep)[|Join(parts, sep)| - 1] == parts[|parts| - 1][|parts[|parts| - 1]| - 1]
    ensures IsTrimmed(Join(parts, sep))
  {
    if |parts| > 1 {
      JoinTrimmed(parts[1..], sep);
    }
  }

  /** Go's `<` on strings: lexicographic order of the characters, which
      agrees with the byte order of their UTF-8 encodings. */
  predicate Less(a: string, b: string) {
    if a == [] then b != []
    else if b == [] then false
    else if a[0] != b[0] then a[0] < b[0]
    else Less(a[1..], b[1..])
  }

  lemma {:induction false} LessIrreflexive(a: string)
    ensures !Less(a, a)
  {
    if a != [] {
      LessIrreflexive(a[1..]);
    }
  }

  lemma {:induction false} LessTransitive(a: string, b: string, c: string)
    requires Less(a, b) && Less(b, c)
    ensures Less(a, c)
  {
    if a != [] && b != [] && c != [] && a[0] == b[0] && b[0] == c[0] {
      LessTransitive(a[1..], b[1..], c[1..]);
    }
  }

  lemma {:induction false} LessTotal(a: string, b: string)
    ensures Less(a, b) || Less(b, a) || a == b
  {
    if a != [] && b != [] && a[0] == b[0] {
      LessTotal(a[1..], b[1..]);
      if a[1..] == b[1..] {
        assert a == [a[0]] + a[1..];
        assert b == [b[0]] + b[1..];
      }
    }
  }

  function DigitChar(d: int): char
    requires 0 <= d < 10
  {
    ('0' as int + d) as char
  }

  predicate IsDigit(c: char) {
    '0' <= c <= '9'
  }

  /** Decimal rendering of a natural number, as `%d` prints it. */
  function NatString(n: nat): (r: string)
    ensures |r| >= 1
    ensures forall i :: 0 <= i < |r| ==> IsDigit(r[i])
    ensures |r| > 1 ==> r[0] != '0'
  {
    if n < 10 then [DigitChar(n)] else NatString(n / 10) + [DigitChar(n % 10)]
  }

  /** Decimal rendering of an integer, with a leading '-' when negative. */
  function IntString(n: int): (r: string)
    ensures |r| >= 1
    ensures n < 0 <==> r[0] == '-'
  {
    if n < 0 then "-" + NatString(-n) else NatString(n)
  }

  /** The value of a string of decimal digits. */
  function DigitsValue(s: string): int
    requires forall i :: 0 <= i < |s| ==> IsDigit(s[i])
  {
    if s == [] then 0
    else DigitsValue(s[..|s| - 1]) * 10 + (s[|s| - 1] as int - '0' as int)
  }

  lemma {:induction false} NatStringValue(n: nat)
    ensures DigitsValue(NatString(n)) == n
  {
    if n >= 10 {
      NatStringValue(n / 10);
      var s := NatString(n);
      assert s == NatString(n / 10) + [DigitChar(n % 10)];
      assert s[..|s| - 1] == NatString(n / 10);
      assert s[|s| - 1] as int - '0' as int == n % 10;
    }
  }
}

=== FILE: urls.dfy ===
/** Go's `net/url` as an oracle: parsing, RFC 3986 section 5.2 reference
    resolution and formatting are supplied by the caller; only the fields the
    aggregator reads or writes (host, path) are exposed. */
module Urls {
  import opened Wrappers

  datatype Url = Url(scheme: string, host: string, path: string, query: string, fragment: string)

  /** `parse` is `url.Parse` (None on error), `resolve` is
      `base.ResolveReference(ref)` and `format` is `URL.String()`. */
  datatype UrlLib = UrlLib(parse: string -> Option<Url>, resolve: (Url, Url) -> Url, format: Url -> string)
}

=== FILE: wrappers.dfy ===
/** Failure-compatible wrappers shared by every module: an optional value and
    a value-or-error-message result. */
module Wrappers {

  /** A value that may be absent (Go's `nil` pointer or `(v, ok)` pair). */
  datatype Option<+T> = None | Some(value: T) {

    /** The wrapped value, or `default` when absent. */
    function GetOr(default: T): T {
      match this
      case Some(v) => v
      case None => default
    }
  }

  /** A successful value or an error message (Go's `(v, error)` pair). */
  datatype Result<+R> = Success(value: R) | Failure(error: string) {

    predicate IsFailure() {
      Failure?
    }

    function PropagateFailure<U>(): Result<U>
      requires Failure?
    {
      Failure(error)
    }

    function Extract(): R
      requires Success?
    {
      value
    }
  }
}
